=== FILE: README.md ===
# Health assessment report generator — a Dafny model

The backend of the health assessment application turns one session record (a
JSON document from a body-scan session) into an HTML page. A headless browser
then prints that page to PDF. Which fields appear depends on the record's
`assessment_id`. It selects a schema in a static configuration: sections of
fields, each field with a label, a unit, a JSONPath expression that locates its
value in the record, and optionally the name of a classification rule set. A
rule set is a list of numeric ranges, each lower bound inclusive and each upper
bound exclusive. When a field names one, its value gets a badge with the label
of the first range that holds it.

The model covers the report generator and its configuration:

- `wrappers.dfy`: the `Option` and `Result` types.
- `numbers.dfy`: decimal numerals. It covers what `String(n)` writes for the
  numbers a record holds and what `Number(s)` reads back from decimal text.
- `json.dfy`: JSON values, property access, `String(v)` and `Number(v)`.
- `jsonpath.dfy`: the JSONPath subset the configuration writes its paths in.
  That is the root `$`, name steps, index steps and the one-comparison filter
  `[?(@.field==n)]`, the name, index and filter selectors of RFC 9535
  (sections 2.3.1, 2.3.3 and 2.3.5). The file holds the nodelist semantics, a
  parser with a printer and their round trip, and `resolveValue`.
- `assessments.dfy`: `assessmentsConfig` and `classifications` as constants,
  and the proofs that they are well formed.
- `exercises.dfy`: the one configured path with a filter, the jog test time.
  It proves which value the card shows for every shape of the record's
  `exercises` list.
- `classify.dfy`: `classifyValue`, as a specification function and as the
  method with the source's loop. It proves that contiguous rule sets partition
  the numbers and that `bmi` has gaps.
- `escape.dfy`: `htmlEscape`, its three replacement passes, and proofs that
  the passes work as one character-by-character pass that can be undone.
- `markup.dfy`: reads the tags back out of generated HTML.
- `report.dfy`: `renderHtml`, as a function `Render` that says what the page is
  and as the methods that write it with the source's two nested loops, plus
  `generateReportForSession`.
- `layout.dfy`: the structure of the page. Its tags, once badges are removed,
  are fixed by the schema alone: one `h2` per section and one card per field,
  in configuration order, whatever the record holds.

JSON numbers are kept as the decimal literal they were written as (mantissa
times a power of ten), so `String(n)` and the range comparisons are exact.

## Model

| member | source | states |
|---|---|---|
| Json.Lookup | web_app_health/web_app_health/backend/src/reports/generator.js:75 | a property read gives the value of a member with that key, and undefined exactly when no member has the key |
| Json.Get | web_app_health/web_app_health/backend/src/reports/generator.js:58 | `data.assessment_id` and `data.session_id` are undefined unless the record is an object with that member; a value found is one of its member values |
| Json.NumberDisplayRoundTrip | web_app_health/web_app_health/backend/src/reports/generator.js:28 | `Number(String(x))` (`ToNumber` of `Display`) is `Number(x)` for every number a record holds, so a value converted to text keeps its classification |
| Json.PlaceholderIsNaN | web_app_health/web_app_health/backend/src/reports/generator.js:28-29 | `Number('-')` (`ToNumber` of the string "-") is NaN, so the placeholder is never classified |
| Numbers.DecimalRoundTrip | web_app_health/web_app_health/backend/src/reports/generator.js:28 | reading back the decimal text of a number gives the number's exact value |
| Numbers.NatToStringRoundTrip | web_app_health/web_app_health/backend/src/reports/generator.js:28 | the digits written for a whole number read back as that number |
| Numbers.StrToNumber | web_app_health/web_app_health/backend/src/reports/generator.js:28-29 | `Number("-")` is NaN |
| Numbers.DecimalToString | web_app_health/web_app_health/backend/src/reports/generator.js:39 | `String(n)` of a number is never empty and never the placeholder "-" |
| JsonPath.SelectFiltered | web_app_health/web_app_health/backend/src/reports/config/assessments.js:41 | the filter `[?(@.id==235)]` keeps only children whose `id` is 235 and no more nodes than there were, and keeps nothing exactly when no child has `id` 235 |
| JsonPath.SelectFilteredAppend | web_app_health/web_app_health/backend/src/reports/config/assessments.js:41 | filtering a concatenation filters each part in turn, so the kept children stay in their original order |
| JsonPath.SelectFilteredFirst | web_app_health/web_app_health/backend/src/reports/config/assessments.js:41 | the first node the filter keeps is the first child whose `id` is 235 |
| JsonPath.Select | web_app_health/web_app_health/backend/src/reports/generator.js:12 | a name step selects at most one member value of an object, an index step at most one item of an array, and a filter only children of the node, no more of them than there are (`SelectFilteredAppend` gives their order) |
| JsonPath.Eval | web_app_health/web_app_health/backend/src/reports/generator.js:12 | a path applied to an empty nodelist selects nothing |
| JsonPath.Query | web_app_health/web_app_health/backend/src/reports/generator.js:12 | a query without filters selects at most one node |
| JsonPath.ParsePath | web_app_health/web_app_health/backend/src/reports/generator.js:12 | every expression the parser accepts is a well-formed path of the subset (`PathRoundTrip` is the converse) |
| JsonPath.EvalConcat | web_app_health/web_app_health/backend/src/reports/generator.js:12 | evaluating a path is evaluating its first part, then the rest on the resulting nodelist |
| JsonPath.AbsentPrefix | web_app_health/web_app_health/backend/src/reports/generator.js:12-14 | once a prefix of a path selects nothing, the whole path selects nothing |
| JsonPath.EvalSingular | web_app_health/web_app_health/backend/src/reports/generator.js:12 | a path without filters selects at most one node |
| JsonPath.PathRoundTrip | web_app_health/web_app_health/backend/src/reports/generator.js:12 | every well-formed path, once written as text, parses back to itself |
| JsonPath.StepsRoundTrip | web_app_health/web_app_health/backend/src/reports/generator.js:12 | the steps after `$`, once written, parse back to themselves |
| JsonPath.StepRoundTrip | web_app_health/web_app_health/backend/src/reports/generator.js:12 | one written step parses back to itself and leaves the text after it |
| JsonPath.ResolveValue | web_app_health/web_app_health/backend/src/reports/generator.js:10-22 | a value returned comes from an expression of the subset whose query does not throw, and is a node that query selects |
| JsonPath.ResolveNames | web_app_health/web_app_health/backend/src/reports/generator.js:10-22 | for an expression made of name steps only, `resolveValue` is the chain of property reads it names, undefined as soon as one member is missing |
| JsonPath.SingularNeverThrows | web_app_health/web_app_health/backend/src/reports/generator.js:11-21 | a query without filters never throws, so the `catch` branch is only reached through a filter |
| JsonPath.ResolveSingular | web_app_health/web_app_health/backend/src/reports/generator.js:13-16 | for a path without filters, keeping the first node discards nothing |
| Assessments.RuleSetsWellFormed | web_app_health/web_app_health/backend/src/reports/config/assessments.js:126-165 | every rule set is non-empty, open below first and above last, has min < max in every range, and ascends |
| Assessments.RuleSetsContiguous | web_app_health/web_app_health/backend/src/reports/config/assessments.js:133-164 | in every rule set but `bmi`, each range starts where the previous one ends |
| Assessments.BmiHasGaps | web_app_health/web_app_health/backend/src/reports/config/assessments.js:127-132 | `bmi` is not contiguous: 24.9 < 25 and 29.9 < 30 |
| Assessments.ConfigWellFormed | web_app_health/web_app_health/backend/src/reports/config/assessments.js:7-123 | every schema has a non-empty name and distinct section ids; every classify name is a defined rule set; every jsonPath parses into the subset and starts with a name step |
| Assessments.HealthFitnessWellFormed | web_app_health/web_app_health/backend/src/reports/config/assessments.js:8-60 | the `as_hr_02` schema is well formed |
| Assessments.CardiacWellFormed | web_app_health/web_app_health/backend/src/reports/config/assessments.js:61-89 | the `as_card_01` schema is well formed |
| Assessments.MentalHealthWellFormed | web_app_health/web_app_health/backend/src/reports/config/assessments.js:91-122 | the `as_mental_01` schema is well formed |
| Assessments.AccuracyPathInSubset | web_app_health/web_app_health/backend/src/reports/config/assessments.js:15 | `$.accuracy` is a path of the subset |
| Assessments.HeartRatePathInSubset | web_app_health/web_app_health/backend/src/reports/config/assessments.js:16 | `$.vitalsMap.vitals.heart_rate` is a path of the subset |
| Assessments.BpSysPathInSubset | web_app_health/web_app_health/backend/src/reports/config/assessments.js:17 | `$.vitalsMap.vitals.bp_sys` is a path of the subset |
| Assessments.BpDiaPathInSubset | web_app_health/web_app_health/backend/src/reports/config/assessments.js:18 | `$.vitalsMap.vitals.bp_dia` is a path of the subset |
| Assessments.WellnessPathInSubset | web_app_health/web_app_health/backend/src/reports/config/assessments.js:25 | `$.vitalsMap.wellness_score` is a path of the subset |
| Assessments.StressIndexPathInSubset | web_app_health/web_app_health/backend/src/reports/config/assessments.js:26 | the stress index path is a path of the subset |
| Assessments.RmssdPathInSubset | web_app_health/web_app_health/backend/src/reports/config/assessments.js:33 | the RMSSD path is a path of the subset |
| Assessments.SdnnPathInSubset | web_app_health/web_app_health/backend/src/reports/config/assessments.js:34 | the SDNN path is a path of the subset |
| Assessments.JogTimePathInSubset | web_app_health/web_app_health/backend/src/reports/config/assessments.js:41 | `$.exercises[?(@.id==235)].setList[0].time` is a path of the subset |
| Assessments.JogTimeParses | web_app_health/web_app_health/backend/src/reports/config/assessments.js:78 | the jog-time expression parses to the name, filter, name, index and name steps it is written with |
| Exercises.FirstSetEval | web_app_health/web_app_health/backend/src/reports/config/assessments.js:78 | the steps `.setList[0].time` find an exercise's first-set time, or nothing |
| Exercises.FilteredTimes | web_app_health/web_app_health/backend/src/reports/config/assessments.js:78 | after the filter, the jog expression finds, in the record's order, the first-set time of each exercise with id 235 that has one |
| Exercises.JogQuery | web_app_health/web_app_health/backend/src/reports/config/assessments.js:78 | the jog query throws exactly when the record's exercises include a null, and otherwise selects the filtered first-set times |
| Exercises.JogTimeShown | web_app_health/web_app_health/backend/src/reports/generator.js:10-22 | the jog card shows the first-set time of the first exercise with id 235 that has one |
| Exercises.JogTimeMissing | web_app_health/web_app_health/backend/src/reports/generator.js:13-15 | when no exercise with id 235 has a first-set time, `resolveValue` is undefined |
| Exercises.JogTimeNoExercises | web_app_health/web_app_health/backend/src/reports/generator.js:13-15 | a record without `exercises` resolves the jog time to undefined |
| Exercises.JogTimeNullExercise | web_app_health/web_app_health/backend/src/reports/generator.js:19-21 | a null among the exercises makes the filter throw, and `resolveValue` catches it and returns undefined |
| Assessments.PosturePathInSubset | web_app_health/web_app_health/backend/src/reports/config/assessments.js:48 | `$.vitalsMap.posture` is a path of the subset |
| Assessments.BmiPathInSubset | web_app_health/web_app_health/backend/src/reports/config/assessments.js:55 | `$.bodyCompositionData.BMI` is a path of the subset |
| Assessments.BodyFatPathInSubset | web_app_health/web_app_health/backend/src/reports/config/assessments.js:56 | the body-fat path is a path of the subset |
| Assessments.AgePathInSubset | web_app_health/web_app_health/backend/src/reports/config/assessments.js:99 | `$.age` is a path of the subset |
| Assessments.GenderPathInSubset | web_app_health/web_app_health/backend/src/reports/config/assessments.js:100 | `$.gender` is a path of the subset |
| Assessments.AnxietyPathInSubset | web_app_health/web_app_health/backend/src/reports/config/assessments.js:107 | `$.mentalHealth.anxiety` is a path of the subset |
| Assessments.DepressionPathInSubset | web_app_health/web_app_health/backend/src/reports/config/assessments.js:108 | `$.mentalHealth.depression` is a path of the subset |
| Assessments.MentalStressPathInSubset | web_app_health/web_app_health/backend/src/reports/config/assessments.js:109 | `$.mentalHealth.stress` is a path of the subset |
| Assessments.SleepPathInSubset | web_app_health/web_app_health/backend/src/reports/config/assessments.js:116 | `$.lifestyle.sleepQuality` is a path of the subset |
| Assessments.ExercisePathInSubset | web_app_health/web_app_health/backend/src/reports/config/assessments.js:117 | `$.lifestyle.exercise` is a path of the subset |
| Assessments.SupportPathInSubset | web_app_health/web_app_health/backend/src/reports/config/assessments.js:118 | `$.lifestyle.socialSupport` is a path of the subset |
| Classify.FirstMatch | web_app_health/web_app_health/backend/src/reports/generator.js:30-35 | a label comes from a range that holds the number; there is none exactly when no range holds it |
| Classify.FirstMatchIsFirst | web_app_health/web_app_health/backend/src/reports/generator.js:30-34 | when range i holds the number and no earlier range does, the label is range i's |
| Classify.Classification | web_app_health/web_app_health/backend/src/reports/generator.js:24-36 | undefined for a null or undefined value, an unknown rule set or a NaN number; a label returned belongs to a range of that rule set that holds `Number(value)` |
| Classify.ClassifyValue | web_app_health/web_app_health/backend/src/reports/generator.js:24-36 | the loop, min inclusive and max exclusive, returns the first matching range's label |
| Classify.ContiguousPartition | web_app_health/web_app_health/backend/src/reports/generator.js:30-34 | in a well-shaped contiguous rule set exactly one range holds each number, and it is the one returned |
| Classify.BoundaryGoesUp | web_app_health/web_app_health/backend/src/reports/generator.js:31-32 | a number on a shared boundary gets the upper range's label |
| Classify.ContiguousSetsLabelEverything | web_app_health/web_app_health/backend/src/reports/config/assessments.js:133-164 | every configured rule set but `bmi` labels every number |
| Classify.WellnessBoundary | web_app_health/web_app_health/backend/src/reports/config/assessments.js:140-141 | `wellness` 75 is "Good" |
| Classify.StressBoundary | web_app_health/web_app_health/backend/src/reports/config/assessments.js:134-135 | `stress` 1 is "Moderate" |
| Classify.BmiGaps | web_app_health/web_app_health/backend/src/reports/config/assessments.js:127-132 | `bmi` labels nothing exactly on [24.9, 25) and [29.9, 30) |
| Classify.BmiExamples | web_app_health/web_app_health/backend/src/reports/config/assessments.js:129-130 | a BMI of 24.95 gets no label; 18.5 is "Normal" |
| Escape.ReplaceAll | web_app_health/web_app_health/backend/src/reports/generator.js:39 | a global replacement leaves no replaced character behind except where the replacement holds one |
| Escape.HtmlEscape | web_app_health/web_app_health/backend/src/reports/generator.js:38-40 | the escaped text holds no `<` and no `>` |
| Escape.HtmlEscapeAppend | web_app_health/web_app_health/backend/src/reports/generator.js:39 | escaping a concatenation escapes each part |
| Escape.HtmlEscapeIsSinglePass | web_app_health/web_app_health/backend/src/reports/generator.js:39 | because `&` is replaced first, the three passes escape each character exactly once |
| Escape.HtmlEscapeEntities | web_app_health/web_app_health/backend/src/reports/generator.js:38-40 | every `&` of escaped text starts `&amp;`, `&lt;` or `&gt;` |
| Escape.HtmlEscapeLength | web_app_health/web_app_health/backend/src/reports/generator.js:38-40 | escaping adds 4 characters per `&` and 3 per `<` or `>` |
| Escape.HtmlEscapeRoundTrip | web_app_health/web_app_health/backend/src/reports/generator.js:38-40 | decoding the three entities gives back the original text |
| Markup.TagsAppend | web_app_health/web_app_health/backend/src/reports/generator.js:55-70 | appending to the page appends its tags when what came before is closed |
| Markup.TextTags | web_app_health/web_app_health/backend/src/reports/generator.js:57-66 | text without `<`, such as escaped text, adds no tag |
| Markup.TagTags | web_app_health/web_app_health/backend/src/reports/generator.js:56-70 | a written tag reads back as that tag |
| Report.RenderCard | web_app_health/web_app_health/backend/src/reports/generator.js:63-66 | one card, as `CardHtml` describes it: the resolved value or "-", the unit only if set, the badge only if `classify` is set and a label came back |
| Report.AppendSection | web_app_health/web_app_health/backend/src/reports/generator.js:60-68 | the heading, the grid opening, one card per field in order, then the grid's end |
| Report.AppendHeader | web_app_health/web_app_health/backend/src/reports/generator.js:55-58 | the page head, the escaped schema name and the escaped assessment and session ids |
| Report.AppendSections | web_app_health/web_app_health/backend/src/reports/generator.js:59-69 | every section of the schema, in order |
| Report.RenderHtml | web_app_health/web_app_health/backend/src/reports/generator.js:42-72 | the method writes exactly the page `Render` describes: the header, every section in order, then the page end |
| Report.MissingFieldCard | web_app_health/web_app_health/backend/src/reports/generator.js:63-66 | a field the record lacks, or holds as null, shows "-" and no badge |
| Report.PlaceholderText | web_app_health/web_app_health/backend/src/reports/generator.js:64-66 | the placeholder is written unchanged |
| Report.BadgeOfRawValue | web_app_health/web_app_health/backend/src/reports/generator.js:63-65 | classifying the shown value gives the same label as classifying the resolved value itself |
| Report.UnitShownWhenPresent | web_app_health/web_app_health/backend/src/reports/generator.js:66 | a unit is written exactly when it is non-empty, after one space, and reads back as itself |
| Report.GenerateReportForSession | web_app_health/web_app_health/backend/src/reports/generator.js:74-86 | it fails, before rendering, with "No config for assessment_id …" exactly when the id has no schema; otherwise the page is `Render` of that schema and the file is `<session_id>_<assessment_id>.pdf` |
| Report.PdfNameDistinct | web_app_health/web_app_health/backend/src/reports/generator.js:86 | for one assessment, different session ids give different file names |
| Layout.CardHtmlTags | web_app_health/web_app_health/backend/src/reports/generator.js:66 | a card's tags are the card template's, with the badge tags exactly when a label is shown |
| Layout.BadgeShownIff | web_app_health/web_app_health/backend/src/reports/generator.js:65-66 | a card has a badge exactly when the field names a rule set and classifying its value gives a non-empty label |
| Layout.FieldsTags | web_app_health/web_app_health/backend/src/reports/generator.js:62-67 | once badges are removed, the cards of a section are one fixed card skeleton per field |
| Layout.SectionsTags | web_app_health/web_app_health/backend/src/reports/generator.js:59-69 | once badges are removed, the sections' tags are the schema's section skeletons in order |
| Layout.HeaderHtmlTags | web_app_health/web_app_health/backend/src/reports/generator.js:56-58 | the header's tags are fixed whatever the name and ids hold |
| Layout.RenderTags | web_app_health/web_app_health/backend/src/reports/generator.js:42-72 | once badges are removed, the page's tags are the schema's skeleton |
| Layout.LayoutIndependentOfData | web_app_health/web_app_health/backend/src/reports/generator.js:42-72 | two records rendered with one schema have the same structure, badges aside |
| Layout.SkeletonCounts | web_app_health/web_app_health/backend/src/reports/generator.js:59-67 | the skeleton holds one `h2` per section and one card per field |
| Layout.RenderCounts | web_app_health/web_app_health/backend/src/reports/generator.js:59-67 | the page holds one `h2` per section and one card per field |

## Left out

- Printing to PDF is left out: the headless browser, its page, the output directory, the file path and the returned paths (`generator.js` lines 80-92). The model stops at the page text and the file name.
- `async` and the error object are left out. A thrown error is a `Failure` carrying its message.
- The stylesheet and the theme colours are presentation only, and the page gets them as the constant `Report.StyleSheet`, which is empty. Their text holds no `<` or `>`, so they add no tag.
- The model covers the jsonpath-plus library only for the subset the configuration uses. An expression outside it resolves to undefined. A filter applied to a node with a null child throws in the library, because it reads `@.id` of null; `resolveValue` catches this and returns undefined, and `JsonPath.Throws` models that case. The filter compares with strict numeric equality, per RFC 9535, rather than JavaScript's loose `==`.
- JsonPath.Select: a name step selects only a member of an object, and an index step only an item of an array. The library also selects with a name step on an array or a string (`length`, a numeric name), with `[0]` on an object that has a key "0", and with an index step on a string (its character). No configured path relies on these. Other errors the library can throw are not modelled either.
- `Number()` of strings is modelled for plain decimal text only: no surrounding whitespace, exponents, hexadecimal or `Infinity`.
- `String()` of numbers is modelled for the decimal literals a record holds. It does not model exponent notation or IEEE-754 rounding.
- Objects whose keys repeat are read by their first member. Keys inherited through the prototype chain are not modelled.
- JsonPath.Children: an object's children are its member values in the order the members are written. JavaScript's `Object.keys`, which the library walks, puts integer-like keys first in ascending order. So when a filter is applied to an object whose keys are, for example, "1" then "0", the library returns the child under "0" first, and the model returns the child under "1". `Exercises.JogTimeShown` and `JsonPath.SelectFilteredFirst` give the first match in written order, which is the library's order for an array of exercises and for objects without integer-like keys.
- Report.GenerateReportForSession: an `assessment_id` that names a key inherited by every object, such as `constructor` or `toString`, finds a truthy entry in `assessmentsConfig`. The source then does not fail with "No config for assessment_id …"; it fails later with a TypeError when it iterates `config.sections` (generator.js line 59). The model has no inherited keys, so it fails with the "No config" message for such an id.
- A `sessionData` that is null makes the source throw a TypeError on the property read of `assessment_id`. The model reads the fields of any non-object record, null included, as undefined.
- `Report.RenderHtml` splits `renderHtml` into `AppendHeader`, `AppendSections` and `AppendSection`, one loop per method. The statements are the same.
- The badge classifies the shown value, not the resolved value. For a missing field the shown value is the placeholder "-". `Report.BadgeOfRawValue` proves that both give the same label.
- The login controller, the server entry point and the front end are not part of this model.

=== FILE: assessments.dfy ===
/**
 * The static registry: the assessment schemas (sections of fields, each with
 * a label, a unit, a path expression and an optional rule-set name) and the
 * classification rule sets (ordered ranges, lower bound inclusive, upper
 * bound exclusive).
 */
module Assessments {
  import opened Wrappers
  import opened Numbers
  import opened JsonPath

  /** One classification range; an absent bound is unbounded on that side. */
  datatype Range = Range(min: Option<real>, max: Option<real>, labelText: string)

  /** One reported field. `classify` names a rule set of `Classifications`. */
  datatype Field = Field(labelText: string, unit: string, jsonPath: string, classify: Option<string>)

  datatype Section = Section(id: string, title: string, fields: seq<Field>)

  /** The configuration of one assessment type. */
  datatype Schema = Schema(name: string, sections: seq<Section>)

  // ---------------------------------------------------------------------
  // Path expressions used by the schemas

  const AccuracyPath := "$.accuracy"
  const HeartRatePath := "$.vitalsMap.vitals.heart_rate"
  const BpSysPath := "$.vitalsMap.vitals.bp_sys"
  const BpDiaPath := "$.vitalsMap.vitals.bp_dia"
  const WellnessPath := "$.vitalsMap.wellness_score"
  const StressIndexPath := "$.vitalsMap.metadata.heart_scores.stress_index"
  const RmssdPath := "$.vitalsMap.metadata.heart_scores.rmssd"
  const SdnnPath := "$.vitalsMap.metadata.heart_scores.sdnn"
  const JogTimePath := "$.exercises[?(@.id==235)].setList[0].time"
  const PosturePath := "$.vitalsMap.posture"
  const BmiPath := "$.bodyCompositionData.BMI"
  const BodyFatPath := "$.vitalsMap.metadata.physiological_scores.bodyfat"
  const AgePath := "$.age"
  const GenderPath := "$.gender"
  const AnxietyPath := "$.mentalHealth.anxiety"
  const DepressionPath := "$.mentalHealth.depression"
  const MentalStressPath := "$.mentalHealth.stress"
  const SleepPath := "$.lifestyle.sleepQuality"
  const ExercisePath := "$.lifestyle.exercise"
  const SupportPath := "$.lifestyle.socialSupport"

  // ---------------------------------------------------------------------
  // Schemas

  const HealthFitness := Schema("Health & Fitness Assessment", [
    Section("key_vitals", "Key Body Vitals", [
      Field("Overall Health Score", "%", AccuracyPath, None),
      Field("Heart Rate", "bpm", HeartRatePath, None),
      Field("Blood Pressure Systolic", "mmHg", BpSysPath, None),
      Field("Blood Pressure Diastolic", "mmHg", BpDiaPath, None)]),
    Section("heart_health", "Heart Health", [
      Field("Wellness Score", "", WellnessPath, Some("wellness")),
      Field("Stress Index", "", StressIndexPath, Some("stress"))]),
    Section("stress_level", "Stress Level", [
      Field("RMSSD", "", RmssdPath, None),
      Field("SDNN", "", SdnnPath, None)]),
    Section("fitness_levels", "Fitness Levels", [
      Field("Cardiovascular Endurance (Jog test time)", "sec", JogTimePath, None)]),
    Section("posture", "Posture", [
      Field("Posture Status", "", PosturePath, None)]),
    Section("body_comp", "Body Composition", [
      Field("BMI", "", BmiPath, Some("bmi")),
      Field("Body Fat %", "%", BodyFatPath, None)])])

  const Cardiac := Schema("Cardiac Assessment", [
    Section("key_vitals", "Key Body Vitals", [
      Field("Overall Health Score", "%", AccuracyPath, None),
      Field("Heart Rate", "bpm", HeartRatePath, None),
      Field("Blood Pressure Systolic", "mmHg", BpSysPath, None),
      Field("Blood Pressure Diastolic", "mmHg", BpDiaPath, None)]),
    Section("cardio_endurance", "Cardiovascular Endurance", [
      Field("Jog Test Time", "sec", JogTimePath, None)]),
    Section("body_comp", "Body Composition", [
      Field("BMI", "", BmiPath, Some("bmi"))])])

  const MentalHealth := Schema("Mental Health Assessment", [
    Section("basic_info", "Basic Information", [
      Field("Assessment Score", "%", AccuracyPath, None),
      Field("Age", "years", AgePath, None),
      Field("Gender", "", GenderPath, None)]),
    Section("mental_health", "Mental Health Metrics", [
      Field("Anxiety Level", "", AnxietyPath, Some("anxiety")),
      Field("Depression Score", "", DepressionPath, Some("depression")),
      Field("Stress Level", "", MentalStressPath, Some("stress"))]),
    Section("lifestyle", "Lifestyle Factors", [
      Field("Sleep Quality", "", SleepPath, Some("sleep")),
      Field("Exercise Frequency", "times/week", ExercisePath, None),
      Field("Social Support", "", SupportPath, Some("support"))])])

  /** The schemas by `assessment_id`. */
  const AssessmentsConfig: map<string, Schema> := map[
    "as_hr_02" := HealthFitness,
    "as_card_01" := Cardiac,
    "as_mental_01" := MentalHealth]

  // ---------------------------------------------------------------------
  // Classification rule sets

  const BmiRules := [
    Range(None, Some(18.5), "Underweight"),
    Range(Some(18.5), Some(24.9), "Normal"),
    Range(Some(25.0), Some(29.9), "Overweight"),
    Range(Some(30.0), None, "Obese")]

  const StressRules := [
    Range(None, Some(1.0), "Low"),
    Range(Some(1.0), Some(2.0), "Moderate"),
    Range(Some(2.0), None, "High")]

  const WellnessRules := [
    Range(None, Some(50.0), "Needs Attention"),
    Range(Some(50.0), Some(75.0), "Average"),
    Range(Some(75.0), None, "Good")]

  const AnxietyRules := [
    Range(None, Some(3.0), "Low"),
    Range(Some(3.0), Some(6.0), "Moderate"),
    Range(Some(6.0), None, "High")]

  const DepressionRules := [
    Range(None, Some(4.0), "Minimal"),
    Range(Some(4.0), Some(8.0), "Mild"),
    Range(Some(8.0), Some(12.0), "Moderate"),
    Range(Some(12.0), None, "Severe")]

  const SleepRules := [
    Range(None, Some(3.0), "Poor"),
    Range(Some(3.0), Some(6.0), "Fair"),
    Range(Some(6.0), None, "Good")]

  const SupportRules := [
    Range(None, Some(2.0), "Low"),
    Range(Some(2.0), Some(4.0), "Moderate"),
    Range(Some(4.0), None, "High")]

  /** The rule sets by name. */
  const Classifications: map<string, seq<Range>> := map[
    "bmi" := BmiRules,
    "stress" := StressRules,
    "wellness" := WellnessRules,
    "anxiety" := AnxietyRules,
    "depression" := DepressionRules,
    "sleep" := SleepRules,
    "support" := SupportRules]

  // ---------------------------------------------------------------------
  // Well-formedness of rule sets

  /**
   * A rule set's shape: not empty, open below first and above last, interior
   * bounds present, and min < max wherever both are given.
   */
  predicate RuleShape(rules: seq<Range>)
  {
    && |rules| >= 1
    && rules[0].min.None?
    && rules[|rules| - 1].max.None?
    && (forall i :: 0 < i < |rules| ==> rules[i].min.Some?)
    && (forall i :: 0 <= i < |rules| - 1 ==> rules[i].max.Some?)
    && (forall i :: 0 <= i < |rules| && rules[i].min.Some? && rules[i].max.Some? ==>
          rules[i].min.value < rules[i].max.value)
  }

  /** Each range ends no later than the next one starts. */
  predicate Ascending(rules: seq<Range>)
  {
    forall i, j :: 0 <= i && j == i + 1 < |rules| ==>
      rules[i].max.Some? && rules[j].min.Some? && rules[i].max.value <= rules[j].min.value
  }

  /** Each range ends exactly where the next one starts: no gaps. */
  predicate Contiguous(rules: seq<Range>)
  {
    forall i, j :: 0 <= i && j == i + 1 < |rules| ==> rules[i].max.Some? && rules[i].max == rules[j].min
  }

  lemma ThreeRuleShape(rules: seq<Range>)
    requires |rules| == 3
    requires rules[0].min.None? && rules[0].max.Some?
    requires rules[1].min.Some? && rules[1].max.Some? && rules[1].min.value < rules[1].max.value
    requires rules[2].min.Some? && rules[2].max.None?
    requires rules[0].max == rules[1].min && rules[1].max == rules[2].min
    ensures RuleShape(rules) && Ascending(rules) && Contiguous(rules)
  {
  }

  lemma FourRuleShape(rules: seq<Range>)
    requires |rules| == 4
    requires rules[0].min.None? && rules[0].max.Some?
    requires rules[1].min.Some? && rules[1].max.Some? && rules[1].min.value < rules[1].max.value
    requires rules[2].min.Some? && rules[2].max.Some? && rules[2].min.value < rules[2].max.value
    requires rules[3].min.Some? && rules[3].max.None?
    requires rules[0].max.value <= rules[1].min.value
    requires rules[1].max.value <= rules[2].min.value
    requires rules[2].max.value <= rules[3].min.value
    ensures RuleShape(rules) && Ascending(rules)
  {
  }

  lemma BmiRulesWellFormed()
    ensures RuleShape(BmiRules) && Ascending(BmiRules)
  {
    FourRuleShape(BmiRules);
  }

  lemma StressRulesWellFormed()
    ensures RuleShape(StressRules) && Ascending(StressRules) && Contiguous(StressRules)
  {
    ThreeRuleShape(StressRules);
  }

  lemma WellnessRulesWellFormed()
    ensures RuleShape(WellnessRules) && Ascending(WellnessRules) && Contiguous(WellnessRules)
  {
    ThreeRuleShape(WellnessRules);
  }

  lemma AnxietyRulesWellFormed()
    ensures RuleShape(AnxietyRules) && Ascending(AnxietyRules) && Contiguous(AnxietyRules)
  {
    ThreeRuleShape(AnxietyRules);
  }

  lemma DepressionRulesWellFormed()
    ensures RuleShape(DepressionRules) && Ascending(DepressionRules) && Contiguous(DepressionRules)
  {
    FourRuleShape(DepressionRules);
    assert Contiguous(DepressionRules);
  }

  lemma SleepRulesWellFormed()
    ensures RuleShape(SleepRules) && Ascending(SleepRules) && Contiguous(SleepRules)
  {
    ThreeRuleShape(SleepRules);
  }

  lemma SupportRulesWellFormed()
    ensures RuleShape(SupportRules) && Ascending(SupportRules) && Contiguous(SupportRules)
  {
    ThreeRuleShape(SupportRules);
  }

  /** Every rule set is well shaped and ascending. */
  lemma RuleSetsWellFormed()
    ensures forall name :: name in Classifications ==>
      RuleShape(Classifications[name]) && Ascending(Classifications[name])
  {
    BmiRulesWellFormed();
    StressRulesWellFormed();
    WellnessRulesWellFormed();
    AnxietyRulesWellFormed();
    DepressionRulesWellFormed();
    SleepRulesWellFormed();
    SupportRulesWellFormed();
  }

  /** Every rule set except `bmi` leaves no gap between consecutive ranges. */
  lemma RuleSetsContiguous()
    ensures forall name :: name in Classifications && name != "bmi" ==> Contiguous(Classifications[name])
  {
    StressRulesWellFormed();
    WellnessRulesWellFormed();
    AnxietyRulesWellFormed();
    DepressionRulesWellFormed();
    SleepRulesWellFormed();
    SupportRulesWellFormed();
  }

  /** `bmi` is not contiguous: [24.9, 25) and [29.9, 30) belong to no range. */
  lemma BmiHasGaps()
    ensures !Contiguous(BmiRules)
    ensures BmiRules[1].max.value < BmiRules[2].min.value
    ensures BmiRules[2].max.value < BmiRules[3].min.value
  {
    assert BmiRules[1].max != BmiRules[2].min;
  }

  // ---------------------------------------------------------------------
  // Well-formedness of schemas

  /** The selectors the configuration uses: name steps, `[0]` and `[?(@.id==235)]`. */
  predicate SubsetStep(step: Step)
  {
    match step
    case Name(_) => true
    case Index(i) => i == 0
    case Filter(f, lit) => f == "id" && lit == 235
  }

  predicate SubsetPath(path: Path)
  {
    |path| >= 1 && path[0].Name? && forall i :: 0 <= i < |path| ==> SubsetStep(path[i])
  }

  /** `text` parses as a path that starts with a name step and stays in the subset. */
  predicate ConfigPath(text: string)
  {
    ParsePath(text).Some? && SubsetPath(ParsePath(text).value)
  }

  predicate FieldWellFormed(f: Field)
  {
    && (f.classify.Some? ==> f.classify.value in Classifications)
    && ConfigPath(f.jsonPath)
  }

  predicate SectionIdsDistinct(sections: seq<Section>)
  {
    forall i, j :: 0 <= i < j < |sections| ==> sections[i].id != sections[j].id
  }

  predicate SectionWellFormed(s: Section)
  {
    forall k :: 0 <= k < |s.fields| ==> FieldWellFormed(s.fields[k])
  }

  /**
   * A schema's name is not empty, its section ids are distinct, every rule-set
   * name a field uses is defined, and every path expression is in the subset.
   */
  predicate SchemaWellFormed(s: Schema)
  {
    && s.name != ""
    && SectionIdsDistinct(s.sections)
    && forall i :: 0 <= i < |s.sections| ==> SectionWellFormed(s.sections[i])
  }

  lemma {:induction false} ExtendSubset(text: string, path: Path, step: Step, longer: string)
    requires Writes(text, path) && (path == [] ==> step.Name?) && (path != [] ==> SubsetPath(path))
    requires WellFormedStep(step) && SubsetStep(step) && longer == text + StepText(step)
    ensures Writes(longer, path + [step]) && SubsetPath(path + [step])
  {
    ExtendWrites(text, path, step, longer);
    assert (path + [step])[0] == if path == [] then step else path[0];
    forall i | 0 <= i < |path| + 1 ensures SubsetStep((path + [step])[i]) {
      if i < |path| {
        assert (path + [step])[i] == path[i];
      }
    }
  }

  lemma {:induction false} WrittenIsConfigPath(text: string, path: Path)
    requires Writes(text, path) && SubsetPath(path)
    ensures ConfigPath(text)
  {
    PathRoundTrip(path);
  }

  /** Extends by a name step; the result is a config path. */
  lemma {:induction false} NameStep(text: string, path: Path, n: string, longer: string)
    returns (longerPath: Path)
    requires Writes(text, path) && (path != [] ==> SubsetPath(path))
    requires ValidName(n) && longer == text + "." + n
    ensures longerPath == path + [Name(n)]
    ensures Writes(longer, longerPath) && SubsetPath(longerPath) && ConfigPath(longer)
  {
    ExtendSubset(text, path, Name(n), longer);
    longerPath := path + [Name(n)];
    WrittenIsConfigPath(longer, longerPath);
  }

  /** `$.top` is written by a path of the subset. */
  lemma TopPrefix(top: string) returns (path: Path)
    requires ValidName(top)
    ensures Writes("$." + top, path) && SubsetPath(path)
  {
    RootWrites();
    path := NameStep("$", [], top, "$." + top);
  }

  /** `$.top.n` is written by a path of the subset. */
  lemma ChildPrefix(top: string, n: string) returns (path: Path)
    requires ValidName(top) && ValidName(n)
    ensures Writes("$." + top + "." + n, path) && SubsetPath(path)
  {
    var prefix := TopPrefix(top);
    path := NameStep("$." + top, prefix, n, "$." + top + "." + n);
  }

  /** `$.vitalsMap.metadata.n`, a group of scores, is written by a path of the subset. */
  lemma MetadataChildPrefix(n: string) returns (path: Path)
    requires ValidName(n)
    ensures Writes("$.vitalsMap.metadata." + n, path) && SubsetPath(path)
  {
    var prefix := ChildPrefix("vitalsMap", "metadata");
    path := NameStep("$.vitalsMap.metadata", prefix, n, "$.vitalsMap.metadata." + n);
  }

  lemma PhysiologicalName()
    ensures ValidName("physiological_scores")
  {
  }

  lemma PhysiologicalPrefix() returns (path: Path)
    ensures Writes("$.vitalsMap.metadata.physiological_scores", path) && SubsetPath(path)
  {
    PhysiologicalName();
    path := MetadataChildPrefix("physiological_scores");
  }

  lemma AccuracyPathInSubset()
    ensures ConfigPath(AccuracyPath)
  {
    RootWrites();
    var _ := NameStep("$", [], "accuracy", AccuracyPath);
  }

  lemma HeartRatePathInSubset()
    ensures ConfigPath(HeartRatePath)
  {
    var prefix := ChildPrefix("vitalsMap", "vitals");
    var _ := NameStep("$.vitalsMap.vitals", prefix, "heart_rate", HeartRatePath);
  }

  lemma BpSysPathInSubset()
    ensures ConfigPath(BpSysPath)
  {
    var prefix := ChildPrefix("vitalsMap", "vitals");
    var _ := NameStep("$.vitalsMap.vitals", prefix, "bp_sys", BpSysPath);
  }

  lemma BpDiaPathInSubset()
    ensures ConfigPath(BpDiaPath)
  {
    var prefix := ChildPrefix("vitalsMap", "vitals");
    var _ := NameStep("$.vitalsMap.vitals", prefix, "bp_dia", BpDiaPath);
  }

  lemma WellnessPathInSubset()
    ensures ConfigPath(WellnessPath)
  {
    var prefix := TopPrefix("vitalsMap");
    var _ := NameStep("$.vitalsMap", prefix, "wellness_score", WellnessPath);
  }

  lemma PosturePathInSubset()
    ensures ConfigPath(PosturePath)
  {
    var prefix := TopPrefix("vitalsMap");
    var _ := NameStep("$.vitalsMap", prefix, "posture", PosturePath);
  }

  lemma StressIndexPathInSubset()
    ensures ConfigPath(StressIndexPath)
  {
    var prefix := MetadataChildPrefix("heart_scores");
    var _ := NameStep("$.vitalsMap.metadata.heart_scores", prefix, "stress_index", StressIndexPath);
  }

  lemma RmssdPathInSubset()
    ensures ConfigPath(RmssdPath)
  {
    var prefix := MetadataChildPrefix("heart_scores");
    var _ := NameStep("$.vitalsMap.metadata.heart_scores", prefix, "rmssd", RmssdPath);
  }

  lemma SdnnPathInSubset()
    ensures ConfigPath(SdnnPath)
  {
    var prefix := MetadataChildPrefix("heart_scores");
    var _ := NameStep("$.vitalsMap.metadata.heart_scores", prefix, "sdnn", SdnnPath);
  }

  lemma BodyFatPathInSubset()
    ensures ConfigPath(BodyFatPath)
  {
    var prefix := PhysiologicalPrefix();
    var _ := NameStep("$.vitalsMap.metadata.physiological_scores", prefix, "bodyfat", BodyFatPath);
  }

  lemma BmiPathInSubset()
    ensures ConfigPath(BmiPath)
  {
    var prefix := TopPrefix("bodyCompositionData");
    var _ := NameStep("$.bodyCompositionData", prefix, "BMI", BmiPath);
  }

  lemma AgePathInSubset()
    ensures ConfigPath(AgePath)
  {
    RootWrites();
    var _ := NameStep("$", [], "age", AgePath);
  }

  lemma GenderPathInSubset()
    ensures ConfigPath(GenderPath)
  {
    RootWrites();
    var _ := NameStep("$", [], "gender", GenderPath);
  }

  lemma AnxietyPathInSubset()
    ensures ConfigPath(AnxietyPath)
  {
    var prefix := TopPrefix("mentalHealth");
    var _ := NameStep("$.mentalHealth", prefix, "anxiety", AnxietyPath);
  }

  lemma DepressionPathInSubset()
    ensures ConfigPath(DepressionPath)
  {
    var prefix := TopPrefix("mentalHealth");
    var _ := NameStep("$.mentalHealth", prefix, "depression", DepressionPath);
  }

  lemma MentalStressPathInSubset()
    ensures ConfigPath(MentalStressPath)
  {
    var prefix := TopPrefix("mentalHealth");
    var _ := NameStep("$.mentalHealth", prefix, "stress", MentalStressPath);
  }

  lemma SleepPathInSubset()
    ensures ConfigPath(SleepPath)
  {
    var prefix := TopPrefix("lifestyle");
    var _ := NameStep("$.lifestyle", prefix, "sleepQuality", SleepPath);
  }

  lemma ExercisePathInSubset()
    ensures ConfigPath(ExercisePath)
  {
    var prefix := TopPrefix("lifestyle");
    var _ := NameStep("$.lifestyle", prefix, "exercise", ExercisePath);
  }

  lemma SupportPathInSubset()
    ensures ConfigPath(SupportPath)
  {
    var prefix := TopPrefix("lifestyle");
    var _ := NameStep("$.lifestyle", prefix, "socialSupport", SupportPath);
  }

  /** The typed form of the jog-test path. */
  const JogTimeSteps: Path := [Name("exercises"), Filter("id", 235), Name("setList"), Index(0), Name("time")]

  lemma FilterStepText()
    ensures StepText(Filter("id", 235)) == "[?(@.id==235)]"
  {
    assert NatToString(23) == "23";
  }

  lemma IndexStepText()
    ensures StepText(Index(0)) == "[0]"
  {
    assert NatToString(0) == "0";
  }

  lemma ExercisesPrefix() returns (path: Path)
    ensures Writes("$.exercises", path) && SubsetPath(path)
    ensures path == [Name("exercises")]
  {
    RootWrites();
    path := NameStep("$", [], "exercises", "$.exercises");
  }

  lemma ExercisesFilterPrefix() returns (path: Path)
    ensures Writes("$.exercises[?(@.id==235)]", path) && SubsetPath(path)
    ensures path == [Name("exercises"), Filter("id", 235)]
  {
    var ex := ExercisesPrefix();
    FilterStepText();
    ExtendSubset("$.exercises", ex, Filter("id", 235), "$.exercises[?(@.id==235)]");
    path := ex + [Filter("id", 235)];
  }

  lemma SetListPrefix() returns (path: Path)
    ensures Writes("$.exercises[?(@.id==235)].setList", path) && SubsetPath(path)
    ensures path == [Name("exercises"), Filter("id", 235), Name("setList")]
  {
    var f := ExercisesFilterPrefix();
    path := NameStep("$.exercises[?(@.id==235)]", f, "setList", "$.exercises[?(@.id==235)].setList");
  }

  lemma FirstSetPrefix() returns (path: Path)
    ensures Writes("$.exercises[?(@.id==235)].setList[0]", path) && SubsetPath(path)
    ensures path == [Name("exercises"), Filter("id", 235), Name("setList"), Index(0)]
  {
    var sl := SetListPrefix();
    IndexStepText();
    ExtendSubset("$.exercises[?(@.id==235)].setList", sl, Index(0), "$.exercises[?(@.id==235)].setList[0]");
    path := sl + [Index(0)];
  }

  lemma FieldsWellFormed1(s: Section)
    requires |s.fields| == 1 && FieldWellFormed(s.fields[0])
    ensures SectionWellFormed(s)
  {
  }

  lemma FieldsWellFormed2(s: Section)
    requires |s.fields| == 2 && FieldWellFormed(s.fields[0]) && FieldWellFormed(s.fields[1])
    ensures SectionWellFormed(s)
  {
    forall k | 0 <= k < 2 ensures FieldWellFormed(s.fields[k]) {
      if k == 0 {} else {}
    }
  }

  lemma FieldsWellFormed3(s: Section)
    requires |s.fields| == 3 && FieldWellFormed(s.fields[0]) && FieldWellFormed(s.fields[1]) && FieldWellFormed(s.fields[2])
    ensures SectionWellFormed(s)
  {
    forall k | 0 <= k < 3 ensures FieldWellFormed(s.fields[k]) {
      if k == 0 {} else if k == 1 {} else {}
    }
  }

  lemma FieldsWellFormed4(s: Section)
    requires |s.fields| == 4 && FieldWellFormed(s.fields[0]) && FieldWellFormed(s.fields[1]) && FieldWellFormed(s.fields[2]) && FieldWellFormed(s.fields[3])
    ensures SectionWellFormed(s)
  {
    forall k | 0 <= k < 4 ensures FieldWellFormed(s.fields[k]) {
      if k == 0 {} else if k == 1 {} else if k == 2 {} else {}
    }
  }

  lemma SectionsWellFormed3(s: Schema)
    requires |s.sections| == 3 && SectionWellFormed(s.sections[0]) && SectionWellFormed(s.sections[1]) && SectionWellFormed(s.sections[2])
    requires s.name != "" && SectionIdsDistinct(s.sections)
    ensures SchemaWellFormed(s)
  {
  }

  lemma SectionsWellFormed6(s: Schema)
    requires |s.sections| == 6 && SectionWellFormed(s.sections[0]) && SectionWellFormed(s.sections[1]) && SectionWellFormed(s.sections[2]) && SectionWellFormed(s.sections[3]) && SectionWellFormed(s.sections[4]) && SectionWellFormed(s.sections[5])
    requires s.name != "" && SectionIdsDistinct(s.sections)
    ensures SchemaWellFormed(s)
  {
  }

  lemma JogTimeWrites() returns (path: Path)
    ensures Writes(JogTimePath, path) && SubsetPath(path)
    ensures path == JogTimeSteps
  {
    var prefix := FirstSetPrefix();
    path := NameStep("$.exercises[?(@.id==235)].setList[0]", prefix, "time", JogTimePath);
  }

  lemma JogTimePathInSubset()
    ensures ConfigPath(JogTimePath)
  {
    var path := JogTimeWrites();
    WrittenIsConfigPath(JogTimePath, path);
  }

  /** The jog-test path expression parses to its typed steps. */
  lemma JogTimeParses()
    ensures ParsePath(JogTimePath) == Some(JogTimeSteps)
  {
    var path := JogTimeWrites();
    PathRoundTrip(path);
  }


  lemma HealthFitnessField00()
    ensures FieldWellFormed(HealthFitness.sections[0].fields[0])
  {
    AccuracyPathInSubset();
  }

  lemma HealthFitnessField01()
    ensures FieldWellFormed(HealthFitness.sections[0].fields[1])
  {
    HeartRatePathInSubset();
  }

  lemma HealthFitnessField02()
    ensures FieldWellFormed(HealthFitness.sections[0].fields[2])
  {
    BpSysPathInSubset();
  }

  lemma HealthFitnessField03()
    ensures FieldWellFormed(HealthFitness.sections[0].fields[3])
  {
    BpDiaPathInSubset();
  }

  lemma HealthFitnessSection0()
    ensures SectionWellFormed(HealthFitness.sections[0])
  {
    HealthFitnessField00();
    HealthFitnessField01();
    HealthFitnessField02();
    HealthFitnessField03();
    FieldsWellFormed4(HealthFitness.sections[0]);
  }

  lemma HealthFitnessField10()
    ensures FieldWellFormed(HealthFitness.sections[1].fields[0])
  {
    WellnessPathInSubset();
  }

  lemma HealthFitnessField11()
    ensures FieldWellFormed(HealthFitness.sections[1].fields[1])
  {
    StressIndexPathInSubset();
  }

  lemma HealthFitnessSection1()
    ensures SectionWellFormed(HealthFitness.sections[1])
  {
    HealthFitnessField10();
    HealthFitnessField11();
    FieldsWellFormed2(HealthFitness.sections[1]);
  }

  lemma HealthFitnessField20()
    ensures FieldWellFormed(HealthFitness.sections[2].fields[0])
  {
    RmssdPathInSubset();
  }

  lemma HealthFitnessField21()
    ensures FieldWellFormed(HealthFitness.sections[2].fields[1])
  {
    SdnnPathInSubset();
  }

  lemma HealthFitnessSection2()
    ensures SectionWellFormed(HealthFitness.sections[2])
  {
    HealthFitnessField20();
    HealthFitnessField21();
    FieldsWellFormed2(HealthFitness.sections[2]);
  }

  lemma HealthFitnessField30()
    ensures FieldWellFormed(HealthFitness.sections[3].fields[0])
  {
    JogTimePathInSubset();
  }

  lemma HealthFitnessSection3()
    ensures SectionWellFormed(HealthFitness.sections[3])
  {
    HealthFitnessField30();
    FieldsWellFormed1(HealthFitness.sections[3]);
  }

  lemma HealthFitnessField40()
    ensures FieldWellFormed(HealthFitness.sections[4].fields[0])
  {
    PosturePathInSubset();
  }

  lemma HealthFitnessSection4()
    ensures SectionWellFormed(HealthFitness.sections[4])
  {
    HealthFitnessField40();
    FieldsWellFormed1(HealthFitness.sections[4]);
  }

  lemma HealthFitnessField50()
    ensures FieldWellFormed(HealthFitness.sections[5].fields[0])
  {
    BmiPathInSubset();
  }

  lemma HealthFitnessField51()
    ensures FieldWellFormed(HealthFitness.sections[5].fields[1])
  {
    BodyFatPathInSubset();
  }

  lemma HealthFitnessSection5()
    ensures SectionWellFormed(HealthFitness.sections[5])
  {
    HealthFitnessField50();
    HealthFitnessField51();
    FieldsWellFormed2(HealthFitness.sections[5]);
  }

  lemma HealthFitnessWellFormed()
    ensures SchemaWellFormed(HealthFitness)
  {
    HealthFitnessSection0();
    HealthFitnessSection1();
    HealthFitnessSection2();
    HealthFitnessSection3();
    HealthFitnessSection4();
    HealthFitnessSection5();
    assert SectionIdsDistinct(HealthFitness.sections);
    SectionsWellFormed6(HealthFitness);
  }

  lemma CardiacField00()
    ensures FieldWellFormed(Cardiac.sections[0].fields[0])
  {
    AccuracyPathInSubset();
  }

  lemma CardiacField01()
    ensures FieldWellFormed(Cardiac.sections[0].fields[1])
  {
    HeartRatePathInSubset();
  }

  lemma CardiacField02()
    ensures FieldWellFormed(Cardiac.sections[0].fields[2])
  {
    BpSysPathInSubset();
  }

  lemma CardiacField03()
    ensures FieldWellFormed(Cardiac.sections[0].fields[3])
  {
    BpDiaPathInSubset();
  }

  lemma CardiacSection0()
    ensures SectionWellFormed(Cardiac.sections[0])
  {
    CardiacField00();
    CardiacField01();
    CardiacField02();
    CardiacField03();
    FieldsWellFormed4(Cardiac.sections[0]);
  }

  lemma CardiacField10()
    ensures FieldWellFormed(Cardiac.sections[1].fields[0])
  {
    JogTimePathInSubset();
  }

  lemma CardiacSection1()
    ensures SectionWellFormed(Cardiac.sections[1])
  {
    CardiacField10();
    FieldsWellFormed1(Cardiac.sections[1]);
  }

  lemma CardiacField20()
    ensures FieldWellFormed(Cardiac.sections[2].fields[0])
  {
    BmiPathInSubset();
  }

  lemma CardiacSection2()
    ensures SectionWellFormed(Cardiac.sections[2])
  {
    CardiacField20();
    FieldsWellFormed1(Cardiac.sections[2]);
  }

  lemma CardiacWellFormed()
    ensures SchemaWellFormed(Cardiac)
  {
    CardiacSection0();
    CardiacSection1();
    CardiacSection2();
    assert SectionIdsDistinct(Cardiac.sections);
    SectionsWellFormed3(Cardiac);
  }

  lemma MentalHealthField00()
    ensures FieldWellFormed(MentalHealth.sections[0].fields[0])
  {
    AccuracyPathInSubset();
  }

  lemma MentalHealthField01()
    ensures FieldWellFormed(MentalHealth.sections[0].fields[1])
  {
    AgePathInSubset();
  }

  lemma MentalHealthField02()
    ensures FieldWellFormed(MentalHealth.sections[0].fields[2])
  {
    GenderPathInSubset();
  }

  lemma MentalHealthSection0()
    ensures SectionWellFormed(MentalHealth.sections[0])
  {
    MentalHealthField00();
    MentalHealthField01();
    MentalHealthField02();
    FieldsWellFormed3(MentalHealth.sections[0]);
  }

  lemma MentalHealthField10()
    ensures FieldWellFormed(MentalHealth.sections[1].fields[0])
  {
    AnxietyPathInSubset();
  }

  lemma MentalHealthField11()
    ensures FieldWellFormed(MentalHealth.sections[1].fields[1])
  {
    DepressionPathInSubset();
  }

  lemma MentalHealthField12()
    ensures FieldWellFormed(MentalHealth.sections[1].fields[2])
  {
    MentalStressPathInSubset();
  }

  lemma MentalHealthSection1()
    ensures SectionWellFormed(MentalHealth.sections[1])
  {
    MentalHealthField10();
    MentalHealthField11();
    MentalHealthField12();
    FieldsWellFormed3(MentalHealth.sections[1]);
  }

  lemma MentalHealthField20()
    ensures FieldWellFormed(MentalHealth.sections[2].fields[0])
  {
    SleepPathInSubset();
  }

  lemma MentalHealthField21()
    ensures FieldWellFormed(MentalHealth.sections[2].fields[1])
  {
    ExercisePathInSubset();
  }

  lemma MentalHealthField22()
    ensures FieldWellFormed(MentalHealth.sections[2].fields[2])
  {
    SupportPathInSubset();
  }

  lemma MentalHealthSection2()
    ensures SectionWellFormed(MentalHealth.sections[2])
  {
    MentalHealthField20();
    MentalHealthField21();
    MentalHealthField22();
    FieldsWellFormed3(MentalHealth.sections[2]);
  }

  lemma MentalHealthWellFormed()
    ensures SchemaWellFormed(MentalHealth)
  {
    MentalHealthSection0();
    MentalHealthSection1();
    MentalHealthSection2();
    assert SectionIdsDistinct(MentalHealth.sections);
    SectionsWellFormed3(MentalHealth);
  }

  /** Every configured schema is well formed. */
  lemma ConfigWellFormed()
    ensures forall id :: id in AssessmentsConfig ==> SchemaWellFormed(AssessmentsConfig[id])
  {
    HealthFitnessWellFormed();
    CardiacWellFormed();
    MentalHealthWellFormed();
  }
}

=== FILE: classify.dfy ===
/**
 * Range classification: a number is given the label of the first range, in
 * declared order, whose inclusive lower bound and exclusive upper bound hold it.
 */
module Classify {
  import opened Wrappers
  import opened Numbers
  import opened Json
  import opened Assessments

  /** `x` lies in `r`: at or above `min` when there is one, below `max` when there is one. */
  predicate InRange(r: Range, x: real)
  {
    (r.min.None? || x >= r.min.value) && (r.max.None? || x < r.max.value)
  }

  /** The label of the first range, in declared order, that holds `x`. */
  function FirstMatch(rules: seq<Range>, x: real): (r: Option<string>)
    ensures r.Some? ==> exists i :: 0 <= i < |rules| && InRange(rules[i], x) && rules[i].labelText == r.value
    ensures r.None? <==> forall i :: 0 <= i < |rules| ==> !InRange(rules[i], x)
  {
    if rules == [] then None
    else if InRange(rules[0], x) then Some(rules[0].labelText)
    else
      var r := FirstMatch(rules[1..], x);
      assert forall i :: 1 <= i < |rules| ==> rules[i] == rules[1..][i - 1];
      r
  }

  /** When range `i` holds `x` and no earlier range does, the label is range `i`'s. */
  lemma {:induction false} FirstMatchIsFirst(rules: seq<Range>, x: real, i: nat)
    requires i < |rules| && InRange(rules[i], x)
    requires forall j :: 0 <= j < i ==> !InRange(rules[j], x)
    ensures FirstMatch(rules, x) == Some(rules[i].labelText)
  {
    if i > 0 {
      assert !InRange(rules[0], x);
      assert rules[1..][i - 1] == rules[i];
      forall j | 0 <= j < i - 1 ensures !InRange(rules[1..][j], x) {
        assert rules[1..][j] == rules[j + 1];
      }
      FirstMatchIsFirst(rules[1..], x, i - 1);
    }
  }

  /**
   * `classifyValue(type, value)`, with None for `undefined`: nothing for a
   * null or undefined value, an unknown rule-set name or a value whose
   * `Number()` is NaN; otherwise the first matching range's label, if any.
   */
  function Classification(ruleSet: string, value: Option<Value>): (r: Option<string>)
    ensures value.None? || value.value.Null? ==> r.None?
    ensures ruleSet !in Classifications ==> r.None?
    ensures value.Some? && ToNumber(value.value).None? ==> r.None?
    ensures r.Some? ==>
      && value.Some? && ruleSet in Classifications && ToNumber(value.value).Some?
      && (exists i :: 0 <= i < |Classifications[ruleSet]|
            && InRange(Classifications[ruleSet][i], ToNumber(value.value).value)
            && Classifications[ruleSet][i].labelText == r.value)
  {
    if value.None? || value.value.Null? then None
    else if ruleSet !in Classifications then None
    else
      match ToNumber(value.value)
      case None => None
      case Some(x) => FirstMatch(Classifications[ruleSet], x)
  }

  /** The lookup loop of `classifyValue`: it stops at the first range that holds the number. */
  method ClassifyValue(ruleSet: string, value: Option<Value>) returns (result: Option<string>)
    ensures result == Classification(ruleSet, value)
  {
    if value.None? || value.value.Null? {
      return None;
    }
    if ruleSet !in Classifications {
      return None;
    }
    var rules := Classifications[ruleSet];
    var num := ToNumber(value.value);
    if num.None? {
      return None;
    }
    var i := 0;
    while i < |rules|
      invariant 0 <= i <= |rules|
      invariant forall j :: 0 <= j < i ==> !InRange(rules[j], num.value)
    {
      var r := rules[i];
      var minOk := r.min.None? || num.value >= r.min.value;
      var maxOk := r.max.None? || num.value < r.max.value;
      if minOk && maxOk {
        FirstMatchIsFirst(rules, num.value, i);
        return Some(r.labelText);
      }
      i := i + 1;
    }
    return None;
  }

  // ---------------------------------------------------------------------
  // Contiguous rule sets partition the numbers

  /** In an ascending rule set, a range ends no later than any later range starts. */
  lemma {:induction false} AscendingChain(rules: seq<Range>, i: nat, j: nat)
    requires RuleShape(rules) && Contiguous(rules)
    requires i < j < |rules|
    ensures rules[i].max.Some? && rules[j].min.Some? && rules[i].max.value <= rules[j].min.value
    decreases j - i
  {
    if j > i + 1 {
      AscendingChain(rules, i + 1, j);
      assert rules[i].max == rules[i + 1].min;
    }
  }

  /** Some range at or after `k` holds `x`, given that `x` is past the start of range `k`. */
  lemma {:induction false} Covered(rules: seq<Range>, x: real, k: nat) returns (i: nat)
    requires RuleShape(rules) && Contiguous(rules)
    requires k < |rules| && (rules[k].min.None? || x >= rules[k].min.value)
    ensures k <= i < |rules| && InRange(rules[i], x)
    decreases |rules| - k
  {
    if rules[k].max.None? || x < rules[k].max.value {
      i := k;
    } else {
      assert k + 1 < |rules|;
      assert rules[k].max == rules[k + 1].min;
      i := Covered(rules, x, k + 1);
    }
  }

  /**
   * A well-shaped contiguous rule set gives every number exactly one range,
   * so the first match is the only match.
   */
  lemma {:induction false} ContiguousPartition(rules: seq<Range>, x: real) returns (i: nat)
    requires RuleShape(rules) && Contiguous(rules)
    ensures i < |rules| && InRange(rules[i], x)
    ensures forall j :: 0 <= j < |rules| && InRange(rules[j], x) ==> j == i
    ensures FirstMatch(rules, x) == Some(rules[i].labelText)
  {
    i := Covered(rules, x, 0);
    forall j | 0 <= j < |rules| && InRange(rules[j], x) ensures j == i {
      if j < i {
        AscendingChain(rules, j, i);
      } else if i < j {
        AscendingChain(rules, i, j);
      }
    }
    FirstMatchIsFirst(rules, x, i);
  }

  /** A number on the boundary between two ranges gets the upper range's label. */
  lemma {:induction false} BoundaryGoesUp(rules: seq<Range>, i: nat)
    requires RuleShape(rules) && Contiguous(rules)
    requires i + 1 < |rules|
    ensures rules[i].max.Some?
    ensures FirstMatch(rules, rules[i].max.value) == Some(rules[i + 1].labelText)
  {
    var x := rules[i].max.value;
    assert rules[i].max == rules[i + 1].min;
    assert InRange(rules[i + 1], x);
    var k := ContiguousPartition(rules, x);
  }

  /** Every configured rule set but `bmi` labels every number, with exactly one range. */
  lemma ContiguousSetsLabelEverything(ruleSet: string, x: real)
    requires ruleSet in Classifications && ruleSet != "bmi"
    ensures FirstMatch(Classifications[ruleSet], x).Some?
  {
    RuleSetsWellFormed();
    RuleSetsContiguous();
    var _ := ContiguousPartition(Classifications[ruleSet], x);
  }

  /** How a record's integer is classified: by its value, against the named rule set. */
  lemma {:induction false} ClassifyInteger(ruleSet: string, rules: seq<Range>, n: int)
    requires ruleSet in Classifications && Classifications[ruleSet] == rules
    ensures Classification(ruleSet, Some(Num(n, 0))) == FirstMatch(rules, n as real)
  {
    assert DecimalValue(n, 0) == n as real;
  }

  /** `wellness` 75 is "Good": 75 is the boundary of "Average" and "Good". */
  lemma WellnessBoundary()
    ensures Classification("wellness", Some(Num(75, 0))) == Some("Good")
  {
    WellnessRulesWellFormed();
    BoundaryGoesUp(WellnessRules, 1);
    ClassifyInteger("wellness", WellnessRules, 75);
  }

  /** `stress` 1 is "Moderate": 1 is the boundary of "Low" and "Moderate". */
  lemma StressBoundary()
    ensures Classification("stress", Some(Num(1, 0))) == Some("Moderate")
  {
    StressRulesWellFormed();
    BoundaryGoesUp(StressRules, 0);
    ClassifyInteger("stress", StressRules, 1);
  }

  // ---------------------------------------------------------------------
  // The gaps of `bmi`

  /** `bmi` labels nothing exactly on [24.9, 25) and [29.9, 30). */
  lemma {:induction false} BmiGaps(x: real)
    ensures FirstMatch(BmiRules, x).None? <==> (24.9 <= x < 25.0) || (29.9 <= x < 30.0)
  {
    var rules := BmiRules;
    if 24.9 <= x < 25.0 || 29.9 <= x < 30.0 {
      forall i | 0 <= i < |rules| ensures !InRange(rules[i], x) {
      }
    } else {
      if x < 18.5 {
        assert InRange(rules[0], x);
      } else if x < 24.9 {
        assert InRange(rules[1], x);
      } else if x < 29.9 {
        assert InRange(rules[2], x);
      } else {
        assert InRange(rules[3], x);
      }
    }
  }

  /** A BMI of 24.95 gets no label; 18.5 is "Normal". */
  lemma BmiExamples()
    ensures Classification("bmi", Some(Num(2495, 2))) == None
    ensures Classification("bmi", Some(Num(185, 1))) == Some("Normal")
  {
    assert ToNumber(Num(2495, 2)) == Some(24.95) by {
      assert Pow10(2) == 100;
    }
    BmiGaps(24.95);
    assert ToNumber(Num(185, 1)) == Some(18.5) by {
      assert Pow10(1) == 10;
    }
    assert InRange(BmiRules[1], 18.5) && !InRange(BmiRules[0], 18.5);
    FirstMatchIsFirst(BmiRules, 18.5, 1);
  }
}

=== FILE: escape.dfy ===
/**
 * `htmlEscape`: three global replacements applied one after another, `&`
 * first, then `<`, then `>`.
 */
module Escape {

  /** `s.replace(/c/g, rep)`: each occurrence of `c` becomes `rep`, the rest is kept in order. */
  function ReplaceAll(s: string, c: char, rep: string): (r: string)
    ensures forall x :: x in r ==> (x in s && x != c) || x in rep
  {
    if s == [] then []
    else (if s[0] == c then rep else [s[0]]) + ReplaceAll(s[1..], c, rep)
  }

  /** Replacing in a concatenation is replacing in each part. */
  lemma {:induction false} ReplaceAllAppend(a: string, b: string, c: char, rep: string)
    ensures ReplaceAll(a + b, c, rep) == ReplaceAll(a, c, rep) + ReplaceAll(b, c, rep)
  {
    if a == [] {
      assert a + b == b;
    } else {
      assert (a + b)[0] == a[0];
      assert (a + b)[1..] == a[1..] + b;
      ReplaceAllAppend(a[1..], b, c, rep);
    }
  }

  /** `htmlEscape(str)` for a string: `&` becomes `&amp;`, then `<` `&lt;`, then `>` `&gt;`. */
  function HtmlEscape(s: string): (r: string)
    ensures '<' !in r && '>' !in r
  {
    ReplaceAll(ReplaceAll(ReplaceAll(s, '&', "&amp;"), '<', "&lt;"), '>', "&gt;")
  }

  /** The entity each character stands for in escaped text. */
  function EscapeChar(c: char): string
  {
    if c == '&' then "&amp;"
    else if c == '<' then "&lt;"
    else if c == '>' then "&gt;"
    else [c]
  }

  /** Escaping character by character, in a single pass. */
  function EscapeEach(s: string): string
  {
    if s == [] then "" else EscapeChar(s[0]) + EscapeEach(s[1..])
  }

  lemma {:induction false} HtmlEscapeAppend(a: string, b: string)
    ensures HtmlEscape(a + b) == HtmlEscape(a) + HtmlEscape(b)
  {
    ReplaceAllAppend(a, b, '&', "&amp;");
    var a1, b1 := ReplaceAll(a, '&', "&amp;"), ReplaceAll(b, '&', "&amp;");
    ReplaceAllAppend(a1, b1, '<', "&lt;");
    var a2, b2 := ReplaceAll(a1, '<', "&lt;"), ReplaceAll(b1, '<', "&lt;");
    ReplaceAllAppend(a2, b2, '>', "&gt;");
  }

  lemma {:induction false} ReplaceAbsent(s: string, c: char, rep: string)
    requires c !in s
    ensures ReplaceAll(s, c, rep) == s
  {
    if s != [] {
      assert s[0] != c;
      ReplaceAbsent(s[1..], c, rep);
      assert [s[0]] + s[1..] == s;
    }
  }

  lemma ReplaceSingle(c: char, d: char, rep: string)
    ensures ReplaceAll([c], d, rep) == if c == d then rep else [c]
  {
    assert [c][0] == c && [c][1..] == [];
  }

  lemma HtmlEscapeChar(c: char)
    ensures HtmlEscape([c]) == EscapeChar(c)
  {
    ReplaceSingle(c, '&', "&amp;");
    if c == '&' {
      ReplaceAbsent("&amp;", '<', "&lt;");
      ReplaceAbsent("&amp;", '>', "&gt;");
    } else {
      ReplaceSingle(c, '<', "&lt;");
      if c == '<' {
        ReplaceAbsent("&lt;", '>', "&gt;");
      } else {
        ReplaceSingle(c, '>', "&gt;");
      }
    }
  }

  /**
   * Because `&` is replaced first, the three passes escape each character of
   * the input exactly once: no entity is escaped twice.
   */
  lemma {:induction false} HtmlEscapeIsSinglePass(s: string)
    ensures HtmlEscape(s) == EscapeEach(s)
  {
    if s == [] {
      assert HtmlEscape(s) == "";
    } else {
      assert s == [s[0]] + s[1..];
      HtmlEscapeAppend([s[0]], s[1..]);
      HtmlEscapeChar(s[0]);
      HtmlEscapeIsSinglePass(s[1..]);
    }
  }

  /** Text that begins with one of the three entities. */
  predicate StartsEntity(t: string)
  {
    "&amp;" <= t || "&lt;" <= t || "&gt;" <= t
  }

  lemma {:induction false} EscapeEachEntities(s: string)
    ensures forall i :: 0 <= i < |EscapeEach(s)| && EscapeEach(s)[i] == '&' ==> StartsEntity(EscapeEach(s)[i..])
  {
    if s != [] {
      var head, rest := EscapeChar(s[0]), EscapeEach(s[1..]);
      EscapeEachEntities(s[1..]);
      var r := EscapeEach(s);
      assert r == head + rest;
      forall i | 0 <= i < |r| && r[i] == '&' ensures StartsEntity(r[i..]) {
        if i < |head| {
          assert i == 0 && r[i..] == head + rest;
        } else {
          assert r[i..] == rest[i - |head|..];
        }
      }
    }
  }

  /** Every `&` of escaped text begins `&amp;`, `&lt;` or `&gt;`. */
  lemma HtmlEscapeEntities(s: string)
    ensures forall i :: 0 <= i < |HtmlEscape(s)| && HtmlEscape(s)[i] == '&' ==> StartsEntity(HtmlEscape(s)[i..])
  {
    HtmlEscapeIsSinglePass(s);
    EscapeEachEntities(s);
  }

  /** The number of characters `c` in `s`. */
  function Count(s: string, c: char): nat
  {
    multiset(s)[c]
  }

  lemma {:induction false} EscapeEachLength(s: string)
    ensures |EscapeEach(s)| == |s| + 4 * Count(s, '&') + 3 * Count(s, '<') + 3 * Count(s, '>')
  {
    if s != [] {
      assert s == [s[0]] + s[1..];
      assert multiset(s) == multiset{s[0]} + multiset(s[1..]);
      EscapeEachLength(s[1..]);
      assert |EscapeEach(s)| == |EscapeChar(s[0])| + |EscapeEach(s[1..])|;
    }
  }

  /** Escaping adds four characters per `&` and three per `<` or `>`. */
  lemma HtmlEscapeLength(s: string)
    ensures |HtmlEscape(s)| == |s| + 4 * Count(s, '&') + 3 * Count(s, '<') + 3 * Count(s, '>')
  {
    HtmlEscapeIsSinglePass(s);
    EscapeEachLength(s);
  }

  /** Reads the three entities back; every other character stands for itself. */
  function Unescape(t: string): string
    decreases |t|
  {
    if t == [] then []
    else if "&amp;" <= t then "&" + Unescape(t[5..])
    else if "&lt;" <= t then "<" + Unescape(t[4..])
    else if "&gt;" <= t then ">" + Unescape(t[4..])
    else [t[0]] + Unescape(t[1..])
  }

  lemma UnescapeChar(c: char, rest: string)
    ensures Unescape(EscapeChar(c) + rest) == [c] + Unescape(rest)
  {
    var t := EscapeChar(c) + rest;
    if c == '&' {
      assert "&amp;" <= t && t[5..] == rest;
    } else if c == '<' {
      assert t[..4] == "&lt;" && t[1] == 'l';
      assert !("&amp;" <= t);
      assert t[4..] == rest;
    } else if c == '>' {
      assert t[..4] == "&gt;" && t[1] == 'g';
      assert !("&amp;" <= t) && !("&lt;" <= t);
      assert t[4..] == rest;
    } else {
      assert t[0] == c && t[1..] == rest;
    }
  }

  lemma {:induction false} EscapeEachRoundTrip(s: string)
    ensures Unescape(EscapeEach(s)) == s
  {
    if s != [] {
      UnescapeChar(s[0], EscapeEach(s[1..]));
      EscapeEachRoundTrip(s[1..]);
      assert [s[0]] + s[1..] == s;
    }
  }

  /** Escaping loses nothing: the escaped text reads back as the original. */
  lemma HtmlEscapeRoundTrip(s: string)
    ensures Unescape(HtmlEscape(s)) == s
  {
    HtmlEscapeIsSinglePass(s);
    EscapeEachRoundTrip(s);
  }
}

=== FILE: exercises.dfy ===
/**
 * The one configured field whose path holds a filter: the jog test time,
 * `$.exercises[?(@.id==235)].setList[0].time`. A record lists its exercises;
 * the card shows the first set's time of the first jog-test exercise that has
 * one, and "-" when there is none.
 */
module Exercises {
  import opened Wrappers
  import opened Json
  import opened JsonPath
  import opened Assessments

  /** The filter `@.id==235`: the exercise is the jog test. */
  predicate IsJogTest(e: Value)
  {
    FieldEquals(e, "id", 235)
  }

  /** `e.setList[0].time`: the time of an exercise's first set, if it has one. */
  function FirstSetTime(e: Value): Option<Value>
  {
    match Get(e, "setList")
    case Some(Arr(sets)) => if sets == [] then None else Get(sets[0], "time")
    case _ => None
  }

  /** The steps after the filter. */
  const FirstSetSteps: Path := [Name("setList"), Index(0), Name("time")]

  lemma SelectAllOne(v: Value, step: Step)
    ensures SelectAll([v], step) == Select(v, step)
  {
    assert [v][1..] == [];
  }

  /** The steps after the filter find an exercise's first-set time, or nothing. */
  lemma FirstSetEval(e: Value)
    ensures Eval([e], FirstSetSteps) == if FirstSetTime(e).Some? then [FirstSetTime(e).value] else []
  {
    var steps := FirstSetSteps;
    assert steps[1..] == [Index(0), Name("time")] && steps[1..][1..] == [Name("time")];
    assert steps[1..][1..][1..] == [];
    SelectAllOne(e, Name("setList"));
    match Get(e, "setList")
    case None =>
    case Some(list) =>
      SelectAllOne(list, Index(0));
      if list.Arr? && list.items != [] {
        SelectAllOne(list.items[0], Name("time"));
      }
  }

  /** What one exercise adds to the times found after the filter. */
  function JogTime(c: Value): seq<Value>
  {
    if IsJogTest(c) && FirstSetTime(c).Some? then [FirstSetTime(c).value] else []
  }

  /** The times found after the filter, exercise by exercise: a skipped exercise adds nothing. */
  lemma FilteredTimesCons(c: Value, rest: seq<Value>)
    ensures Eval(SelectFiltered([c] + rest, "id", 235), FirstSetSteps)
         == JogTime(c) + Eval(SelectFiltered(rest, "id", 235), FirstSetSteps)
  {
    SelectFilteredAppend([c], rest, "id", 235);
    var head := SelectFiltered([c], "id", 235);
    assert head == if IsJogTest(c) then [c] else [] by {
      MatchingCons(c, [], "id", 235);
      assert [c] + [] == [c];
    }
    EvalAppend(head, SelectFiltered(rest, "id", 235), FirstSetSteps);
    FirstSetEval(c);
  }

  /** The times the steps after the filter find, exercise by exercise in the record's order. */
  function JogTimes(cs: seq<Value>): seq<Value>
  {
    if cs == [] then [] else JogTime(cs[0]) + JogTimes(cs[1..])
  }

  lemma {:induction false} FilteredTimes(cs: seq<Value>)
    ensures Eval(SelectFiltered(cs, "id", 235), FirstSetSteps) == JogTimes(cs)
  {
    if cs == [] {
      MatchingMembers(cs, "id", 235);
    } else {
      assert cs == [cs[0]] + cs[1..];
      FilteredTimesCons(cs[0], cs[1..]);
      FilteredTimes(cs[1..]);
    }
  }

  lemma {:induction false} JogTimesFirst(cs: seq<Value>, k: nat)
    requires k < |cs| && IsJogTest(cs[k]) && FirstSetTime(cs[k]).Some?
    requires forall j :: 0 <= j < k && IsJogTest(cs[j]) ==> FirstSetTime(cs[j]).None?
    ensures JogTimes(cs) != [] && JogTimes(cs)[0] == FirstSetTime(cs[k]).value
  {
    if k > 0 {
      assert JogTime(cs[0]) == [];
      assert cs[1..][k - 1] == cs[k];
      forall j | 0 <= j < k - 1 && IsJogTest(cs[1..][j]) ensures FirstSetTime(cs[1..][j]).None? {
        assert cs[1..][j] == cs[j + 1];
      }
      JogTimesFirst(cs[1..], k - 1);
    }
  }

  lemma {:induction false} JogTimesNone(cs: seq<Value>)
    requires forall j :: 0 <= j < |cs| && IsJogTest(cs[j]) ==> FirstSetTime(cs[j]).None?
    ensures JogTimes(cs) == []
  {
    if cs != [] {
      assert JogTime(cs[0]) == [];
      forall j | 0 <= j < |cs| - 1 && IsJogTest(cs[1..][j]) ensures FirstSetTime(cs[1..][j]).None? {
        assert cs[1..][j] == cs[j + 1];
      }
      JogTimesNone(cs[1..]);
    }
  }

  /** A query that reads `exercises`, filters by id and goes on without filters. */
  lemma FilterThrows(record: Value, exercises: Value, rest: Path)
    requires Get(record, "exercises") == Some(exercises) && Singular(rest)
    ensures Throws([record], [Name("exercises"), Filter("id", 235)] + rest) <==> Null in Children(exercises)
  {
    var steps := [Name("exercises"), Filter("id", 235)] + rest;
    assert steps[0] == Name("exercises") && steps[1..][0] == Filter("id", 235) && steps[1..][1..] == rest;
    SelectAllOne(record, Name("exercises"));
    SingularNeverThrows(SelectAll([exercises], Filter("id", 235)), rest);
    assert NullChild([exercises]) <==> Null in Children(exercises) by {
      assert [exercises][1..] == [];
    }
  }

  lemma FilterQuery(record: Value, exercises: Value, rest: Path)
    requires Get(record, "exercises") == Some(exercises)
    ensures Query(record, [Name("exercises"), Filter("id", 235)] + rest)
         == Eval(SelectFiltered(Children(exercises), "id", 235), rest)
  {
    var steps := [Name("exercises"), Filter("id", 235)] + rest;
    assert steps[0] == Name("exercises") && steps[1..][0] == Filter("id", 235) && steps[1..][1..] == rest;
    SelectAllOne(record, Name("exercises"));
    SelectAllOne(exercises, Filter("id", 235));
    var filtered := SelectFiltered(Children(exercises), "id", 235);
    assert Eval([record], steps) == Eval([exercises], steps[1..]);
    assert Eval([exercises], steps[1..]) == Eval(filtered, rest);
  }

  /** The jog-test query reads the record's exercises, filters them, and reads each first set's time. */
  lemma JogQuery(record: Value, exercises: Value)
    requires Get(record, "exercises") == Some(exercises)
    ensures Throws([record], JogTimeSteps) <==> Null in Children(exercises)
    ensures Query(record, JogTimeSteps) == Eval(SelectFiltered(Children(exercises), "id", 235), FirstSetSteps)
  {
    assert JogTimeSteps == [Name("exercises"), Filter("id", 235)] + FirstSetSteps;
    assert Singular(FirstSetSteps);
    FilterThrows(record, exercises, FirstSetSteps);
    FilterQuery(record, exercises, FirstSetSteps);
  }

  lemma JogQueryNoExercises(record: Value)
    requires Get(record, "exercises").None?
    ensures !Throws([record], JogTimeSteps) && Query(record, JogTimeSteps) == []
  {
    var steps := JogTimeSteps;
    SelectAllOne(record, Name("exercises"));
    assert steps[1..][0].Filter?;
    assert !NullChild([]);
    SingularNeverThrows([], steps[1..][1..]);
  }

  /**
   * The jog card shows the first-set time of the first exercise, in the
   * record's order, that has id 235 and a first-set time.
   */
  lemma JogTimeShown(record: Value, exercises: Value, k: nat)
    requires Get(record, "exercises") == Some(exercises) && Null !in Children(exercises)
    requires k < |Children(exercises)| && IsJogTest(Children(exercises)[k])
    requires FirstSetTime(Children(exercises)[k]).Some?
    requires forall j :: 0 <= j < k && IsJogTest(Children(exercises)[j]) ==> FirstSetTime(Children(exercises)[j]).None?
    ensures ResolveValue(record, JogTimePath) == FirstSetTime(Children(exercises)[k])
  {
    JogTimeParses();
    ResolveParsed(record, JogTimePath, JogTimeSteps);
    JogQuery(record, exercises);
    FilteredTimes(Children(exercises));
    JogTimesFirst(Children(exercises), k);
  }

  /** No exercise with id 235 (or none with a first-set time): the card shows nothing. */
  lemma JogTimeMissing(record: Value, exercises: Value)
    requires Get(record, "exercises") == Some(exercises)
    requires forall j :: 0 <= j < |Children(exercises)| && IsJogTest(Children(exercises)[j]) ==> FirstSetTime(Children(exercises)[j]).None?
    ensures ResolveValue(record, JogTimePath) == None
  {
    JogTimeParses();
    ResolveParsed(record, JogTimePath, JogTimeSteps);
    JogQuery(record, exercises);
    FilteredTimes(Children(exercises));
    JogTimesNone(Children(exercises));
  }

  /** A record without exercises shows nothing for the jog test. */
  lemma JogTimeNoExercises(record: Value)
    requires Get(record, "exercises").None?
    ensures ResolveValue(record, JogTimePath) == None
  {
    JogTimeParses();
    ResolveParsed(record, JogTimePath, JogTimeSteps);
    JogQueryNoExercises(record);
  }

  /** A null among the exercises makes the filter throw, and the card shows nothing. */
  lemma JogTimeNullExercise(record: Value, exercises: Value)
    requires Get(record, "exercises") == Some(exercises) && Null in Children(exercises)
    ensures ResolveValue(record, JogTimePath) == None
  {
    JogTimeParses();
    ResolveParsed(record, JogTimePath, JogTimeSteps);
    JogQuery(record, exercises);
  }
}

=== FILE: json.dfy ===
/**
 * JSON values as a session record holds them, with the three JavaScript
 * operations the report generator applies to them: property access, `String(v)`
 * and `Number(v)`.
 */
module Json {
  import opened Wrappers
  import opened Numbers

  /** A number is kept as the decimal literal it was written as: mantissa x 10^-exponent. */
  datatype Value =
    | Null
    | Bool(b: bool)
    | Num(mantissa: int, exponent: nat)
    | Str(s: string)
    | Arr(items: seq<Value>)
    | Obj(members: seq<Member>)

  datatype Member = Member(key: string, value: Value)

  /** The value of the first member named `key`. */
  function Lookup(members: seq<Member>, key: string): (r: Option<Value>)
    ensures r.Some? ==> exists i :: 0 <= i < |members| && members[i].key == key && members[i].value == r.value
    ensures r.None? <==> forall i :: 0 <= i < |members| ==> members[i].key != key
  {
    if members == [] then None
    else if members[0].key == key then Some(members[0].value)
    else Lookup(members[1..], key)
  }

  /** Property access `v.key`: undefined (None) unless `v` is an object with such a member. */
  function Get(v: Value, key: string): (r: Option<Value>)
    ensures r.Some? ==> v.Obj? && r.value in MemberValues(v.members)
    ensures r.None? <==> !v.Obj? || forall i :: 0 <= i < |v.members| ==> v.members[i].key != key
  {
    if v.Obj? then Lookup(v.members, key) else None
  }

  function MemberValues(members: seq<Member>): (vs: seq<Value>)
    ensures |vs| == |members| && forall i :: 0 <= i < |members| ==> vs[i] == members[i].value
  {
    seq(|members|, i requires 0 <= i < |members| => members[i].value)
  }

  /** `parts.join(sep)`. */
  function Join(parts: seq<string>, sep: string): string
  {
    if parts == [] then ""
    else if |parts| == 1 then parts[0]
    else parts[0] + sep + Join(parts[1..], sep)
  }

  /**
   * `String(v)`: numbers in decimal notation, arrays joined with "," (a null
   * element gives the empty string), every object "[object Object]".
   */
  function Display(v: Value): string
    decreases v
  {
    match v
    case Null => "null"
    case Bool(b) => if b then "true" else "false"
    case Num(m, e) => DecimalToString(m, e)
    case Str(s) => s
    case Arr(items) =>
      Join(seq(|items|, i requires 0 <= i < |items| =>
        if items[i].Null? then "" else Display(items[i])), ",")
    case Obj(_) => "[object Object]"
  }

  /** `String(v)` of a value that may be `undefined`. */
  function JsString(v: Option<Value>): string
  {
    match v
    case None => "undefined"
    case Some(x) => Display(x)
  }

  /** `Number(v)`; None stands for NaN. Arrays and objects go through `String(v)`. */
  function ToNumber(v: Value): (r: Option<real>)
  {
    match v
    case Null => Some(0.0)
    case Bool(b) => Some(if b then 1.0 else 0.0)
    case Num(m, e) => Some(DecimalValue(m, e))
    case Str(s) => StrToNumber(s)
    case Arr(_) => StrToNumber(Display(v))
    case Obj(_) => StrToNumber(Display(v))
  }

  /** `Number(String(x)) == x` for every number of a record. */
  lemma {:induction false} NumberDisplayRoundTrip(m: int, e: nat)
    ensures ToNumber(Str(Display(Num(m, e)))) == ToNumber(Num(m, e))
  {
    DecimalRoundTrip(m, e);
  }

  /** The placeholder "-" is not a number: `Number('-')` is NaN. */
  lemma PlaceholderIsNaN()
    ensures ToNumber(Str("-")) == None
  {
  }
}

=== FILE: jsonpath.dfy ===
/**
 * The JSONPath subset the report configuration writes its field paths in:
 * the root `$`, name steps `.name`, index steps `[i]` and the one-comparison
 * filter `[?(@.field==n)]`. These are the name, index and filter selectors of
 * RFC 9535 (sections 2.3.1, 2.3.3 and 2.3.5). A query yields a nodelist;
 * resolving a field keeps the first node of it, or nothing.
 */
module JsonPath {
  import opened Wrappers
  import opened Numbers
  import opened Json

  datatype Step =
    | Name(name: string)
    | Index(index: nat)
    | Filter(field: string, literal: nat)

  type Path = seq<Step>

  /** The children a filter selector looks at: array elements or member values, in order. */
  function Children(v: Value): seq<Value>
  {
    match v
    case Arr(items) => items
    case Obj(members) => MemberValues(members)
    case _ => []
  }

  /** `@.field == literal` holds of `v`: `v` has a member `field` that is the number `literal`. */
  predicate FieldEquals(v: Value, field: string, literal: nat)
  {
    var x := Get(v, field);
    x.Some? && x.value.Num? && x.value.mantissa == literal * Pow10(x.value.exponent)
  }

  /** The nodes of `vs` that satisfy the filter, in their original order. */
  function Matching(vs: seq<Value>, field: string, literal: nat): seq<Value>
  {
    if vs == [] then []
    else (if FieldEquals(vs[0], field, literal) then [vs[0]] else []) + Matching(vs[1..], field, literal)
  }

  lemma {:induction false} MatchingMembers(vs: seq<Value>, field: string, literal: nat)
    ensures |Matching(vs, field, literal)| <= |vs|
    ensures forall x :: x in Matching(vs, field, literal) ==> x in vs && FieldEquals(x, field, literal)
    ensures Matching(vs, field, literal) == [] <==> forall i :: 0 <= i < |vs| ==> !FieldEquals(vs[i], field, literal)
  {
    if vs != [] {
      MatchingMembers(vs[1..], field, literal);
      assert forall i :: 1 <= i < |vs| ==> vs[i] == vs[1..][i - 1];
    }
  }

  lemma MatchingCons(v: Value, rest: seq<Value>, field: string, literal: nat)
    ensures Matching([v] + rest, field, literal)
         == (if FieldEquals(v, field, literal) then [v] else []) + Matching(rest, field, literal)
  {
    assert ([v] + rest)[0] == v && ([v] + rest)[1..] == rest;
  }

  lemma {:induction false} MatchingAppend(a: seq<Value>, b: seq<Value>, field: string, literal: nat)
    ensures Matching(a + b, field, literal) == Matching(a, field, literal) + Matching(b, field, literal)
  {
    if a == [] {
      assert a + b == b;
    } else {
      var h := if FieldEquals(a[0], field, literal) then [a[0]] else [];
      var x, y := Matching(a[1..], field, literal), Matching(b, field, literal);
      assert a == [a[0]] + a[1..];
      assert a + b == [a[0]] + (a[1..] + b);
      MatchingCons(a[0], a[1..], field, literal);
      MatchingCons(a[0], a[1..] + b, field, literal);
      MatchingAppend(a[1..], b, field, literal);
      assert h + (x + y) == (h + x) + y;
    }
  }

  lemma {:induction false} MatchingFirst(vs: seq<Value>, field: string, literal: nat, k: nat)
    requires k < |vs| && FieldEquals(vs[k], field, literal)
    requires forall j :: 0 <= j < k ==> !FieldEquals(vs[j], field, literal)
    ensures Matching(vs, field, literal) != [] && Matching(vs, field, literal)[0] == vs[k]
  {
    if k > 0 {
      assert !FieldEquals(vs[0], field, literal);
      assert vs[1..][k - 1] == vs[k];
      forall j | 0 <= j < k - 1 ensures !FieldEquals(vs[1..][j], field, literal) {
        assert vs[1..][j] == vs[j + 1];
      }
      MatchingFirst(vs[1..], field, literal, k - 1);
    }
  }

  /**
   * The filter selector `[?(@.field==literal)]` applied to the children `vs`:
   * the children that satisfy it, in their original order.
   */
  function SelectFiltered(vs: seq<Value>, field: string, literal: nat): (r: seq<Value>)
    ensures |r| <= |vs|
    ensures forall x :: x in r ==> x in vs && FieldEquals(x, field, literal)
    ensures r == [] <==> forall i :: 0 <= i < |vs| ==> !FieldEquals(vs[i], field, literal)
  {
    MatchingMembers(vs, field, literal);
    Matching(vs, field, literal)
  }

  /** Filtering a concatenation filters each part: the matches keep their order and repeats. */
  lemma SelectFilteredAppend(a: seq<Value>, b: seq<Value>, field: string, literal: nat)
    ensures SelectFiltered(a + b, field, literal) == SelectFiltered(a, field, literal) + SelectFiltered(b, field, literal)
  {
    MatchingAppend(a, b, field, literal);
  }

  /** The first node the filter keeps is the first child that satisfies it. */
  lemma SelectFilteredFirst(vs: seq<Value>, field: string, literal: nat, k: nat)
    requires k < |vs| && FieldEquals(vs[k], field, literal)
    requires forall j :: 0 <= j < k ==> !FieldEquals(vs[j], field, literal)
    ensures SelectFiltered(vs, field, literal) != []
    ensures SelectFiltered(vs, field, literal)[0] == vs[k]
  {
    MatchingFirst(vs, field, literal, k);
  }

  /** One selector applied to one node. */
  function Select(v: Value, step: Step): (r: seq<Value>)
    ensures step.Name? ==> |r| <= 1 && (r != [] ==> v.Obj? && r[0] in MemberValues(v.members))
    ensures step.Index? ==> |r| <= 1 && (r != [] ==> v.Arr? && r[0] in v.items)
    ensures step.Filter? ==> |r| <= |Children(v)| && forall x :: x in r ==> x in Children(v)
  {
    match step
    case Name(n) => (match Get(v, n) case Some(x) => [x] case None => [])
    case Index(i) => if v.Arr? && i < |v.items| then [v.items[i]] else []
    case Filter(f, lit) => SelectFiltered(Children(v), f, lit)
  }

  /** One selector applied to each node of a nodelist, results concatenated in order. */
  function SelectAll(nodes: seq<Value>, step: Step): seq<Value>
  {
    if nodes == [] then [] else Select(nodes[0], step) + SelectAll(nodes[1..], step)
  }

  /** The steps of a path applied left to right. */
  function Eval(nodes: seq<Value>, path: Path): (r: seq<Value>)
    ensures nodes == [] ==> r == []
    decreases |path|
  {
    if path == [] then nodes else Eval(SelectAll(nodes, path[0]), path[1..])
  }

  /** The nodelist a path selects from the root record. */
  function Query(root: Value, path: Path): (r: seq<Value>)
    ensures Singular(path) ==> |r| <= 1
  {
    var r := Eval([root], path);
    if Singular(path) then EvalSingular([root], path); r else r
  }

  /** A path without filter steps selects at most one node (a singular query). */
  predicate Singular(path: Path)
  {
    forall i :: 0 <= i < |path| ==> !path[i].Filter?
  }

  lemma {:induction false} SelectAllAppend(a: seq<Value>, b: seq<Value>, step: Step)
    ensures SelectAll(a + b, step) == SelectAll(a, step) + SelectAll(b, step)
  {
    if a == [] {
      assert a + b == b;
    } else {
      assert (a + b)[0] == a[0];
      assert (a + b)[1..] == a[1..] + b;
      SelectAllAppend(a[1..], b, step);
    }
  }

  /** Each node of a nodelist is evaluated on its own; the results keep the nodelist's order. */
  lemma {:induction false} EvalAppend(a: seq<Value>, b: seq<Value>, path: Path)
    ensures Eval(a + b, path) == Eval(a, path) + Eval(b, path)
    decreases |path|
  {
    if path != [] {
      SelectAllAppend(a, b, path[0]);
      EvalAppend(SelectAll(a, path[0]), SelectAll(b, path[0]), path[1..]);
    }
  }

  /** Evaluating `p + q` is evaluating `p`, then `q` on what `p` selected. */
  lemma {:induction false} EvalConcat(nodes: seq<Value>, p: Path, q: Path)
    ensures Eval(nodes, p + q) == Eval(Eval(nodes, p), q)
    decreases |p|
  {
    if p == [] {
      assert p + q == q;
    } else {
      assert (p + q)[0] == p[0];
      assert (p + q)[1..] == p[1..] + q;
      EvalConcat(SelectAll(nodes, p[0]), p[1..], q);
    }
  }

  /** A prefix that resolves to nothing makes the whole path resolve to nothing. */
  lemma {:induction false} AbsentPrefix(root: Value, p: Path, q: Path)
    requires Query(root, p) == []
    ensures Query(root, p + q) == []
  {
    EvalConcat([root], p, q);
  }

  lemma {:induction false} SelectAllSingular(nodes: seq<Value>, step: Step)
    requires !step.Filter?
    ensures |SelectAll(nodes, step)| <= |nodes|
  {
    if nodes != [] {
      SelectAllSingular(nodes[1..], step);
    }
  }

  /** Name and index steps never multiply nodes. */
  lemma {:induction false} EvalSingular(nodes: seq<Value>, path: Path)
    requires Singular(path)
    ensures |Eval(nodes, path)| <= |nodes|
    decreases |path|
  {
    if path != [] {
      SelectAllSingular(nodes, path[0]);
      assert Singular(path[1..]) by {
        forall i | 0 <= i < |path| - 1 ensures !path[1..][i].Filter? {
          assert path[1..][i] == path[i + 1];
        }
      }
      EvalSingular(SelectAll(nodes, path[0]), path[1..]);
    }
  }

  // ---------------------------------------------------------------------
  // Path expressions as text

  predicate IsNameChar(c: char)
  {
    'a' <= c <= 'z' || 'A' <= c <= 'Z' || '0' <= c <= '9' || c == '_'
  }

  predicate ValidName(s: string)
  {
    |s| > 0 && forall i :: 0 <= i < |s| ==> IsNameChar(s[i])
  }

  /** A step whose names can be written in dot notation. */
  predicate WellFormedStep(step: Step)
  {
    match step
    case Name(n) => ValidName(n)
    case Index(_) => true
    case Filter(f, _) => ValidName(f)
  }

  predicate WellFormed(path: Path)
  {
    forall i :: 0 <= i < |path| ==> WellFormedStep(path[i])
  }

  /** The length of the longest prefix of `s` made of name characters. */
  function NameLength(s: string): (k: nat)
    ensures k <= |s|
    ensures forall i :: 0 <= i < k ==> IsNameChar(s[i])
    ensures k < |s| ==> !IsNameChar(s[k])
  {
    if s == [] || !IsNameChar(s[0]) then 0 else 1 + NameLength(s[1..])
  }

  /** The length of the longest prefix of `s` made of decimal digits. */
  function DigitLength(s: string): (k: nat)
    ensures k <= |s| && AllDigits(s[..k])
    ensures k < |s| ==> !IsDigit(s[k])
  {
    if s == [] || !IsDigit(s[0]) then 0
    else
      var k := 1 + DigitLength(s[1..]);
      assert s[..k] == [s[0]] + s[1..][..k - 1];
      k
  }

  /** A decimal numeral followed by `close`: its value and the text after `close`. */
  function ParseNumber(s: string, close: string): (r: Option<(nat, string)>)
    requires close != []
    ensures r.Some? ==> |r.value.1| < |s|
  {
    var d := DigitLength(s);
    var tail := s[d..];
    if d == 0 || |tail| < |close| || tail[..|close|] != close then None
    else Some((DigitsValue(s[..d]), tail[|close|..]))
  }

  /** The body of a filter step, after `[?(@.`: `field==n)]`. */
  function ParseFilterBody(s: string): (r: Option<(Step, string)>)
    ensures r.Some? ==> |r.value.1| < |s|
    ensures r.Some? ==> r.value.0.Filter? && ValidName(r.value.0.field)
  {
    var k := NameLength(s);
    var after := s[k..];
    if k == 0 || |after| < 2 || after[..2] != "==" then None
    else
      match ParseNumber(after[2..], ")]")
      case None => None
      case Some((lit, rest)) => Some((Filter(s[..k], lit), rest))
  }

  /** The first step of `s` and the text after it, or None if `s` does not start with a step. */
  function ParseStep(s: string): (r: Option<(Step, string)>)
    ensures r.Some? ==> |r.value.1| < |s| && WellFormedStep(r.value.0)
  {
    if s == [] then None
    else if s[0] == '.' then
      var k := NameLength(s[1..]);
      if k == 0 then None else Some((Name(s[1..1 + k]), s[1 + k..]))
    else if |s| >= 5 && s[..5] == "[?(@." then ParseFilterBody(s[5..])
    else if s[0] == '[' then
      match ParseNumber(s[1..], "]")
      case None => None
      case Some((i, rest)) => Some((Index(i), rest))
    else None
  }

  function Prepend(step: Step, rest: Option<Path>): (r: Option<Path>)
    ensures r.Some? <==> rest.Some?
    ensures r.Some? ==> |r.value| == |rest.value| + 1 && r.value[0] == step && r.value[1..] == rest.value
  {
    match rest
    case Some(p) => Some([step] + p)
    case None => None
  }

  /** Parses the steps after the root marker; None for text outside the subset. */
  function ParseSteps(s: string): (r: Option<Path>)
    ensures r.Some? ==> WellFormed(r.value)
    decreases |s|
  {
    if s == [] then Some([])
    else
      match ParseStep(s)
      case None => None
      case Some((step, rest)) =>
        var r := Prepend(step, ParseSteps(rest));
        assert r.Some? ==> forall i :: 1 <= i < |r.value| ==> r.value[i] == r.value[1..][i - 1];
        r
  }

  /** Parses a whole path expression, which starts with the root marker `$`. */
  function ParsePath(s: string): (r: Option<Path>)
    ensures r.Some? ==> WellFormed(r.value)
  {
    if s != [] && s[0] == '$' then ParseSteps(s[1..]) else None
  }

  function StepText(step: Step): string
  {
    match step
    case Name(n) => "." + n
    case Index(i) => "[" + NatToString(i) + "]"
    case Filter(f, lit) => "[?(@." + f + "==" + NatToString(lit) + ")]"
  }

  function StepsText(path: Path): string
  {
    if path == [] then "" else StepText(path[0]) + StepsText(path[1..])
  }

  /** The path expression for a path, as the configuration writes it. */
  function PathText(path: Path): string
  {
    "$" + StepsText(path)
  }

  /** Text that may follow a step: nothing, or the start of another step. */
  predicate StepBoundary(rest: string)
  {
    rest == [] || rest[0] == '.' || rest[0] == '['
  }

  lemma {:induction false} NameRun(n: string, rest: string)
    requires ValidName(n) && (rest == [] || !IsNameChar(rest[0]))
    ensures NameLength(n + rest) == |n|
    decreases |n|
  {
    if |n| > 1 {
      assert (n + rest)[1..] == n[1..] + rest;
      NameRun(n[1..], rest);
    } else {
      assert (n + rest)[1..] == rest;
    }
  }

  lemma {:induction false} DigitRun(ds: string, rest: string)
    requires |ds| > 0 && AllDigits(ds) && (rest == [] || !IsDigit(rest[0]))
    ensures DigitLength(ds + rest) == |ds|
    decreases |ds|
  {
    if |ds| > 1 {
      assert (ds + rest)[1..] == ds[1..] + rest;
      DigitRun(ds[1..], rest);
    } else {
      assert (ds + rest)[1..] == rest;
    }
  }

  lemma {:induction false} NumberRoundTrip(i: nat, close: string, rest: string)
    requires close != [] && !IsDigit(close[0])
    ensures ParseNumber(NatToString(i) + close + rest, close) == Some((i, rest))
  {
    var ds := NatToString(i);
    var s := ds + close + rest;
    assert s == ds + (close + rest);
    DigitRun(ds, close + rest);
    assert s[..|ds|] == ds;
    var tail := s[|ds|..];
    assert tail == close + rest;
    assert tail[..|close|] == close;
    assert tail[|close|..] == rest;
    NatToStringRoundTrip(i);
  }

  lemma {:induction false} NameStepRoundTrip(n: string, rest: string)
    requires ValidName(n) && StepBoundary(rest)
    ensures ParseStep("." + n + rest) == Some((Name(n), rest))
  {
    var s := "." + n + rest;
    assert s[1..] == n + rest;
    NameRun(n, rest);
    assert s[1..1 + |n|] == n;
    assert s[1 + |n|..] == rest;
  }

  lemma {:induction false} IndexStepRoundTrip(i: nat, rest: string)
    requires StepBoundary(rest)
    ensures ParseStep("[" + NatToString(i) + "]" + rest) == Some((Index(i), rest))
  {
    var ds := NatToString(i);
    var s := "[" + ds + "]" + rest;
    assert s[0] == '[' && s[1] == ds[0];
    assert |s| >= 5 ==> s[..5][1] == ds[0] && "[?(@."[1] == '?';
    assert s[1..] == ds + "]" + rest;
    NumberRoundTrip(i, "]", rest);
  }

  lemma {:induction false} FilterBodyRoundTrip(f: string, lit: nat, rest: string)
    requires ValidName(f) && StepBoundary(rest)
    ensures ParseFilterBody(f + "==" + NatToString(lit) + ")]" + rest) == Some((Filter(f, lit), rest))
  {
    var ds := NatToString(lit);
    var s := f + "==" + ds + ")]" + rest;
    assert s == f + ("==" + ds + ")]" + rest);
    NameRun(f, "==" + ds + ")]" + rest);
    assert s[..|f|] == f;
    var after := s[|f|..];
    assert after == "==" + ds + ")]" + rest;
    assert after[..2] == "==";
    assert after[2..] == ds + ")]" + rest;
    NumberRoundTrip(lit, ")]", rest);
  }

  lemma {:induction false} FilterStepRoundTrip(f: string, lit: nat, rest: string)
    requires ValidName(f) && StepBoundary(rest)
    ensures ParseStep("[?(@." + f + "==" + NatToString(lit) + ")]" + rest) == Some((Filter(f, lit), rest))
  {
    var s := "[?(@." + f + "==" + NatToString(lit) + ")]" + rest;
    assert s[..5] == "[?(@.";
    assert s[5..] == f + "==" + NatToString(lit) + ")]" + rest;
    FilterBodyRoundTrip(f, lit, rest);
  }

  /** Each step's text parses back to the step, leaving what follows it. */
  lemma {:induction false} StepRoundTrip(step: Step, rest: string)
    requires WellFormedStep(step) && StepBoundary(rest)
    ensures ParseStep(StepText(step) + rest) == Some((step, rest))
  {
    match step
    case Name(n) => NameStepRoundTrip(n, rest);
    case Index(i) => IndexStepRoundTrip(i, rest);
    case Filter(f, lit) => FilterStepRoundTrip(f, lit, rest);
  }

  lemma {:induction false} StepsTextBoundary(path: Path)
    ensures StepBoundary(StepsText(path))
  {
    if path != [] {
      var t := StepText(path[0]);
      assert t[0] == '.' || t[0] == '[';
      assert StepsText(path)[0] == t[0];
    }
  }

  lemma {:induction false} StepsRoundTrip(path: Path)
    requires WellFormed(path)
    ensures ParseSteps(StepsText(path)) == Some(path)
  {
    if path != [] {
      var rest := StepsText(path[1..]);
      assert WellFormed(path[1..]) by {
        forall i | 0 <= i < |path| - 1 ensures WellFormedStep(path[1..][i]) {
          assert path[1..][i] == path[i + 1];
        }
      }
      StepsRoundTrip(path[1..]);
      StepsTextBoundary(path[1..]);
      assert WellFormedStep(path[0]);
      StepRoundTrip(path[0], rest);
      assert StepsText(path) == StepText(path[0]) + rest;
      assert [path[0]] + path[1..] == path;
    }
  }

  /** Writing a well-formed path as text and parsing it back gives the same path. */
  lemma {:induction false} PathRoundTrip(path: Path)
    requires WellFormed(path)
    ensures ParsePath(PathText(path)) == Some(path)
  {
    var s := PathText(path);
    assert s[1..] == StepsText(path);
    StepsRoundTrip(path);
  }

  lemma {:induction false} StepsTextSnoc(path: Path, step: Step)
    ensures StepsText(path + [step]) == StepsText(path) + StepText(step)
  {
    if path == [] {
      assert [] + [step] == [step];
      assert [step][1..] == [];
    } else {
      assert (path + [step])[0] == path[0];
      assert (path + [step])[1..] == path[1..] + [step];
      StepsTextSnoc(path[1..], step);
    }
  }

  /** `text` is the path expression of the well-formed path `path`. */
  predicate Writes(text: string, path: Path)
  {
    WellFormed(path) && PathText(path) == text
  }

  lemma RootWrites()
    ensures Writes("$", [])
  {
    assert PathText([]) == "$" + "";
  }

  lemma {:induction false} WellFormedSnoc(path: Path, step: Step)
    requires WellFormed(path) && WellFormedStep(step)
    ensures WellFormed(path + [step])
  {
    forall i | 0 <= i < |path| + 1 ensures WellFormedStep((path + [step])[i]) {
      if i < |path| {
        assert (path + [step])[i] == path[i];
      }
    }
  }

  lemma PathTextSnoc(path: Path, step: Step)
    ensures PathText(path + [step]) == PathText(path) + StepText(step)
  {
    StepsTextSnoc(path, step);
    var head, tail := StepsText(path), StepText(step);
    assert "$" + (head + tail) == ("$" + head) + tail;
  }

  /** Appending a step's text to a path expression appends the step to its path. */
  lemma {:induction false} ExtendWrites(text: string, path: Path, step: Step, longer: string)
    requires Writes(text, path) && WellFormedStep(step) && longer == text + StepText(step)
    ensures Writes(longer, path + [step])
  {
    PathTextSnoc(path, step);
    WellFormedSnoc(path, step);
  }

  // ---------------------------------------------------------------------
  // Resolution

  /**
   * Whether a node of `nodes` has a null child. A filter reads `@.field` of
   * every child it looks at, and reading a property of null throws.
   */
  predicate NullChild(nodes: seq<Value>)
    decreases |nodes|
  {
    nodes != [] && (Null in Children(nodes[0]) || NullChild(nodes[1..]))
  }

  /** Evaluating `path` on `nodes` applies a filter to a node with a null child, so the query throws. */
  predicate Throws(nodes: seq<Value>, path: Path)
    decreases |path|
  {
    path != [] && ((path[0].Filter? && NullChild(nodes)) || Throws(SelectAll(nodes, path[0]), path[1..]))
  }

  /** Without filters, nothing is read of a null child: the query never throws. */
  lemma {:induction false} SingularNeverThrows(nodes: seq<Value>, path: Path)
    requires Singular(path)
    ensures !Throws(nodes, path)
    decreases |path|
  {
    if path != [] {
      assert Singular(path[1..]) by {
        forall i | 0 <= i < |path| - 1 ensures !path[1..][i].Filter? {
          assert path[1..][i] == path[i + 1];
        }
      }
      SingularNeverThrows(SelectAll(nodes, path[0]), path[1..]);
    }
  }

  /**
   * A field's value: the first node the path expression selects, or None when
   * it selects nothing, is not a path expression of the subset, or throws.
   */
  function ResolveValue(json: Value, pathExpr: string): (r: Option<Value>)
    ensures r.Some? ==> ParsePath(pathExpr).Some? && !Throws([json], ParsePath(pathExpr).value)
    ensures r.Some? ==> r.value in Query(json, ParsePath(pathExpr).value)
  {
    match ParsePath(pathExpr)
    case None => None
    case Some(path) =>
      if Throws([json], path) then None
      else
        var nodes := Query(json, path);
        if nodes == [] then None else Some(nodes[0])
  }

  /** Resolving a text that parses, stated on its parsed path. */
  lemma ResolveParsed(json: Value, text: string, path: Path)
    requires ParsePath(text) == Some(path)
    ensures ResolveValue(json, text)
         == if Throws([json], path) || Query(json, path) == [] then None else Some(Query(json, path)[0])
  {
  }

  /** `v.n1.n2…`: property reads in turn, undefined as soon as one finds nothing. */
  function GetChain(v: Value, names: seq<string>): Option<Value>
    decreases |names|
  {
    if names == [] then Some(v)
    else
      match Get(v, names[0])
      case None => None
      case Some(x) => GetChain(x, names[1..])
  }

  /** The path `$.n1.n2…` of member names. */
  function NamePath(names: seq<string>): (p: Path)
    ensures |p| == |names| && forall i :: 0 <= i < |names| ==> p[i] == Name(names[i])
  {
    seq(|names|, i requires 0 <= i < |names| => Name(names[i]))
  }

  lemma {:induction false} EvalNames(v: Value, names: seq<string>)
    ensures Eval([v], NamePath(names)) == if GetChain(v, names).Some? then [GetChain(v, names).value] else []
    decreases |names|
  {
    if names != [] {
      var p := NamePath(names);
      assert p[0] == Name(names[0]);
      assert p[1..] == NamePath(names[1..]);
      assert SelectAll([v], p[0]) == Select(v, p[0]) + SelectAll([], p[0]);
      match Get(v, names[0])
      case None =>
      case Some(x) =>
        assert SelectAll([v], p[0]) == [x];
        assert Eval([v], p) == Eval([x], NamePath(names[1..]));
        EvalNames(x, names[1..]);
    }
  }

  /**
   * A path of member names resolves to the property reads it spells: `$.a.b`
   * is `json.a.b`, undefined as soon as a member is missing.
   */
  lemma ResolveNames(json: Value, names: seq<string>)
    requires forall i :: 0 <= i < |names| ==> ValidName(names[i])
    ensures ResolveValue(json, PathText(NamePath(names))) == GetChain(json, names)
  {
    var p := NamePath(names);
    assert WellFormed(p);
    PathRoundTrip(p);
    assert Singular(p);
    SingularNeverThrows([json], p);
    EvalNames(json, names);
  }

  /** For a singular path the first node is the only node: nothing is discarded. */
  lemma {:induction false} ResolveSingular(json: Value, path: Path)
    requires WellFormed(path) && Singular(path)
    ensures var r := ResolveValue(json, PathText(path));
      Query(json, path) == (if r.Some? then [r.value] else [])
  {
    PathRoundTrip(path);
    SingularNeverThrows([json], path);
    EvalSingular([json], path);
  }
}

=== FILE: layout.dfy ===
/**
 * The tag structure of the report page. Every tag of a rendered page comes
 * from the template: escaped text adds none. Leaving out the two tags of
 * each badge, the tags depend on the schema alone and not on the record:
 * the header, then per section a heading and a grid with one card per
 * field, in declared order, then the end of the page.
 */
module Layout {
  import opened Wrappers
  import opened Json
  import opened JsonPath
  import opened Assessments
  import opened Classify
  import opened Escape
  import opened Markup
  import opened Report

  const CardStartTags := [CardTag, "div class=\"label\""]
  const LabelEndTags := ["/div", "div class=\"value\""]
  const CardEndTags := ["/div", "/div"]

  /** The tags of one card: the badge's two tags only when it shows one. */
  function CardTags(badge: bool): seq<string>
  {
    CardStartTags + LabelEndTags + (if badge then [BadgeTag, BadgeEndTag] else []) + CardEndTags
  }

  const PageStartTags := ["html", "head", "meta charset=\"utf-8\"/", "style"]
  const PageHeadEndTags := ["/style", "/head", "body"]
  const PageEndTags := ["/body", "/html"]

  /** The tags of the head of the page, the title and the identification line. */
  const HeaderTags := PageStartTags + PageHeadEndTags + ["h1", "/h1"] + [IdLineTag, "/div"]

  /** The tags that open a section: its heading and the start of its grid. */
  const SectionOpeningTags := [HeadingTag, "/h2", GridTag]

  /** `tags` with the badge tags taken out. */
  function WithoutBadges(tags: seq<string>): seq<string>
  {
    if tags == [] then []
    else (if tags[0] == BadgeTag || tags[0] == BadgeEndTag then [] else [tags[0]]) + WithoutBadges(tags[1..])
  }

  /** `n` copies of `block`, one after another. */
  function Repeat(block: seq<string>, n: nat): seq<string>
  {
    if n == 0 then [] else Repeat(block, n - 1) + block
  }

  function SectionSkeleton(section: Section): seq<string>
  {
    SectionOpeningTags + Repeat(CardTags(false), |section.fields|) + ["/div"]
  }

  function SectionsSkeleton(sections: seq<Section>): seq<string>
  {
    if sections == [] then []
    else SectionsSkeleton(sections[..|sections| - 1]) + SectionSkeleton(sections[|sections| - 1])
  }

  /** The tags of every page rendered from `config`, the badges left out. */
  function Skeleton(config: Schema): seq<string>
  {
    HeaderTags + SectionsSkeleton(config.sections) + PageEndTags
  }

  /** The number of fields of all sections together. */
  function TotalFields(sections: seq<Section>): nat
  {
    if sections == [] then 0
    else TotalFields(sections[..|sections| - 1]) + |sections[|sections| - 1].fields|
  }

  // ---------------------------------------------------------------------
  // Taking the badge tags out

  lemma {:induction false} WithoutBadgesAppend(a: seq<string>, b: seq<string>)
    ensures WithoutBadges(a + b) == WithoutBadges(a) + WithoutBadges(b)
  {
    if a == [] {
      assert a + b == b;
    } else {
      assert (a + b)[0] == a[0];
      assert (a + b)[1..] == a[1..] + b;
      WithoutBadgesAppend(a[1..], b);
    }
  }

  lemma {:induction false} WithoutBadgesPlain(tags: seq<string>)
    requires BadgeTag !in tags && BadgeEndTag !in tags
    ensures WithoutBadges(tags) == tags
  {
    if tags != [] {
      WithoutBadgesPlain(tags[1..]);
      assert [tags[0]] + tags[1..] == tags;
    }
  }

  lemma CountAppend(a: seq<string>, b: seq<string>, t: string)
    ensures multiset(a + b)[t] == multiset(a)[t] + multiset(b)[t]
  {
    assert multiset(a + b) == multiset(a) + multiset(b);
  }

  /** Taking the badge tags out keeps every other tag as often as it occurs. */
  lemma {:induction false} WithoutBadgesCount(tags: seq<string>, t: string)
    requires t != BadgeTag && t != BadgeEndTag
    ensures multiset(WithoutBadges(tags))[t] == multiset(tags)[t]
  {
    if tags != [] {
      WithoutBadgesCount(tags[1..], t);
      assert tags == [tags[0]] + tags[1..];
      assert multiset(tags) == multiset{tags[0]} + multiset(tags[1..]);
    }
  }

  lemma CardSkeletonOf(badge: bool)
    ensures WithoutBadges(CardTags(badge)) == CardTags(false)
  {
    var front := CardStartTags + LabelEndTags;
    var middle: seq<string> := if badge then [BadgeTag, BadgeEndTag] else [];
    WithoutBadgesAppend(front + middle, CardEndTags);
    WithoutBadgesAppend(front, middle);
    WithoutBadgesPlain(front);
    WithoutBadgesPlain(CardEndTags);
    if badge {
      assert middle[1..] == [BadgeEndTag] && middle[1..][1..] == [];
    }
  }

  // ---------------------------------------------------------------------
  // Facts about the template's own tags

  lemma BadgeInCard(badge: bool)
    ensures BadgeTag in CardTags(badge) <==> badge
  {
    if badge {
      assert CardTags(badge)[4] == BadgeTag;
    }
  }

  lemma SectionTagsHaveNoBadge()
    ensures WithoutBadges(SectionOpeningTags) == SectionOpeningTags
    ensures WithoutBadges(["/div"]) == ["/div"]
  {
    WithoutBadgesPlain(SectionOpeningTags);
    WithoutBadgesPlain(["/div"]);
  }

  lemma HeaderTagsHaveNoBadge()
    ensures WithoutBadges(HeaderTags) == HeaderTags
  {
    WithoutBadgesPlain(HeaderTags);
  }

  lemma PageEndTagsHaveNoBadge()
    ensures WithoutBadges(PageEndTags) == PageEndTags
  {
    WithoutBadgesPlain(PageEndTags);
  }

  lemma CountedTagsAreNotBadges()
    ensures HeadingTag != BadgeTag && HeadingTag != BadgeEndTag
    ensures CardTag != BadgeTag && CardTag != BadgeEndTag
  {
  }

  lemma IdLineTagIsPlain()
    ensures PlainName(IdLineTag)
  {
    assert PlainName("div style=\"") && PlainName("\"");
    assert PlainName("margin-bottom:8px;") && PlainName("color:#6b7280");
    PlainNameAppend("margin-bottom:8px;", "color:#6b7280");
    PlainNameAppend("div style=\"", IdLineStyle);
    PlainNameAppend("div style=\"" + IdLineStyle, "\"");
  }

  lemma BadgeTagsArePlain()
    ensures PlainName(BadgeTag) && PlainName(BadgeEndTag)
  {
  }

  lemma CardTagsCount()
    ensures multiset(CardTags(false))[CardTag] == 1 && multiset(CardTags(false))[HeadingTag] == 0
  {
  }

  lemma SectionOpeningCount()
    ensures multiset(SectionOpeningTags)[HeadingTag] == 1 && multiset(SectionOpeningTags)[CardTag] == 0
    ensures multiset(["/div"])[HeadingTag] == 0 && multiset(["/div"])[CardTag] == 0
  {
  }

  lemma HeaderAndEndCount()
    ensures HeadingTag !in HeaderTags && CardTag !in HeaderTags
    ensures HeadingTag !in PageEndTags && CardTag !in PageEndTags
  {
  }

  // ---------------------------------------------------------------------
  // The tags of each part of the page

  lemma BadgeTags(cls: Option<string>)
    ensures Closed(BadgeHtml(cls))
    ensures Tags(BadgeHtml(cls)) == if Truthy(cls) then [BadgeTag, BadgeEndTag] else []
  {
    if Truthy(cls) {
      var text := HtmlEscape(cls.value);
      BadgeTagsArePlain();
      TagTags(BadgeTag);
      TextTags(text);
      TagTags(BadgeEndTag);
      JoinTags(BadgeStart, text);
      JoinTags(BadgeStart + text, BadgeEnd);
    } else {
      TextTags("");
    }
  }

  /** Whatever escaped text fills it, a card has the template's tags and no other. */
  lemma CardTextTags(labelHtml: string, valueHtml: string, unitHtml: string, cls: Option<string>)
    requires '<' !in labelHtml && '<' !in valueHtml && '<' !in unitHtml
    ensures Closed(CardText(labelHtml, valueHtml, unitHtml, BadgeHtml(cls)))
    ensures Tags(CardText(labelHtml, valueHtml, unitHtml, BadgeHtml(cls))) == CardTags(Truthy(cls))
  {
    var badgeHtml := BadgeHtml(cls);
    TwoTags(CardTag, "div class=\"label\"");
    TwoTags("/div", "div class=\"value\"");
    TwoTags("/div", "/div");
    TextTags(labelHtml);
    TextTags(valueHtml);
    TextTags(unitHtml);
    BadgeTags(cls);
    var s1 := CardStart + labelHtml;
    JoinTags(CardStart, labelHtml);
    assert Tags(s1) == Tags(CardStart);
    var s2 := s1 + LabelEnd;
    JoinTags(s1, LabelEnd);
    var s3 := s2 + valueHtml;
    JoinTags(s2, valueHtml);
    assert Tags(s3) == Tags(s2);
    var s4 := s3 + unitHtml;
    JoinTags(s3, unitHtml);
    assert Tags(s4) == Tags(s2);
    var s5 := s4 + badgeHtml;
    JoinTags(s4, badgeHtml);
    JoinTags(s5, CardEnd);
  }

  lemma CardHtmlTags(data: Value, field: Field)
    ensures Closed(CardHtml(data, field))
    ensures Tags(CardHtml(data, field)) == CardTags(Truthy(BadgeLabel(field, FieldValue(data, field))))
  {
    var shown := FieldValue(data, field);
    CardTextTags(HtmlEscape(field.labelText), EscapeValue(Some(shown)), UnitHtml(field.unit), BadgeLabel(field, shown));
  }

  /**
   * A card shows a badge exactly when its field names a rule set and
   * classifying the field's value in the record gives a non-empty label.
   */
  lemma BadgeShownIff(data: Value, field: Field)
    ensures BadgeTag in Tags(CardHtml(data, field))
        <==> field.classify.Some? && field.classify.value != ""
             && Truthy(Classification(field.classify.value, ResolveValue(data, field.jsonPath)))
  {
    CardHtmlTags(data, field);
    BadgeOfRawValue(data, field);
    BadgeInCard(true);
    BadgeInCard(false);
  }

  lemma {:induction false} FieldsTags(data: Value, fields: seq<Field>)
    ensures Closed(FieldsHtml(data, fields))
    ensures WithoutBadges(Tags(FieldsHtml(data, fields))) == Repeat(CardTags(false), |fields|)
  {
    if fields == [] {
      TextTags("");
    } else {
      var init, last := fields[..|fields| - 1], fields[|fields| - 1];
      FieldsTags(data, init);
      CardHtmlTags(data, last);
      JoinTags(FieldsHtml(data, init), CardHtml(data, last));
      WithoutBadgesAppend(Tags(FieldsHtml(data, init)), Tags(CardHtml(data, last)));
      CardSkeletonOf(Truthy(BadgeLabel(last, FieldValue(data, last))));
    }
  }

  lemma HeadingTags(title: string)
    ensures Closed(HeadingHtml(title)) && Tags(HeadingHtml(title)) == [HeadingTag, "/h2"]
  {
    TagTags(HeadingTag);
    TextTags(HtmlEscape(title));
    TagTags("/h2");
    JoinTags(HeadingStart, HtmlEscape(title));
    JoinTags(HeadingStart + HtmlEscape(title), HeadingEnd);
  }

  /** Whatever the heading's text and the cards, a section has the template's tags around the cards' tags. */
  lemma SectionShape(heading: string, cards: string)
    requires Closed(heading) && Tags(heading) == [HeadingTag, "/h2"] && Closed(cards)
    ensures Closed(heading + GridStart + cards + DivEnd)
    ensures WithoutBadges(Tags(heading + GridStart + cards + DivEnd)) == SectionOpeningTags + WithoutBadges(Tags(cards)) + ["/div"]
  {
    TagTags(GridTag);
    TagTags("/div");
    JoinTags(heading, GridStart);
    assert Tags(heading + GridStart) == SectionOpeningTags;
    JoinTags(heading + GridStart, cards);
    JoinTags(heading + GridStart + cards, DivEnd);
    WithoutBadgesAppend(SectionOpeningTags + Tags(cards), ["/div"]);
    WithoutBadgesAppend(SectionOpeningTags, Tags(cards));
    SectionTagsHaveNoBadge();
  }

  lemma SectionTags(data: Value, section: Section)
    ensures Closed(SectionHtml(data, section))
    ensures WithoutBadges(Tags(SectionHtml(data, section))) == SectionSkeleton(section)
  {
    HeadingTags(section.title);
    FieldsTags(data, section.fields);
    SectionShape(HeadingHtml(section.title), FieldsHtml(data, section.fields));
  }

  lemma {:induction false} SectionsTags(data: Value, sections: seq<Section>)
    ensures Closed(SectionsHtml(data, sections))
    ensures WithoutBadges(Tags(SectionsHtml(data, sections))) == SectionsSkeleton(sections)
  {
    if sections == [] {
      TextTags("");
    } else {
      var init, last := sections[..|sections| - 1], sections[|sections| - 1];
      SectionsTags(data, init);
      SectionTags(data, last);
      JoinTags(SectionsHtml(data, init), SectionHtml(data, last));
      WithoutBadgesAppend(Tags(SectionsHtml(data, init)), Tags(SectionHtml(data, last)));
    }
  }

  lemma HeadTags()
    ensures Closed(PageStart + StyleSheet + PageHeadEnd)
    ensures Tags(PageStart + StyleSheet + PageHeadEnd) == PageStartTags + PageHeadEndTags
  {
    FourTags("html", "head", "meta charset=\"utf-8\"/", "style");
    TextTags(StyleSheet);
    ThreeTags("/style", "/head", "body");
    JoinTags(PageStart, StyleSheet);
    JoinTags(PageStart + StyleSheet, PageHeadEnd);
  }

  lemma TitleTags(nameHtml: string)
    requires '<' !in nameHtml
    ensures Closed(TitleStart + nameHtml + TitleEnd) && Tags(TitleStart + nameHtml + TitleEnd) == ["h1", "/h1"]
  {
    TagTags("h1");
    TextTags(nameHtml);
    TagTags("/h1");
    JoinTags(TitleStart, nameHtml);
    JoinTags(TitleStart + nameHtml, TitleEnd);
  }

  /** A tag, four pieces of text without `<`, and a closing tag: the two tags are all there is. */
  lemma TextBetweenTags(opening: string, t1: string, t2: string, t3: string, t4: string, closing: string)
    requires PlainName(opening) && PlainName(closing)
    requires '<' !in t1 && '<' !in t2 && '<' !in t3 && '<' !in t4
    ensures Closed(TagText(opening) + t1 + t2 + t3 + t4 + TagText(closing))
    ensures Tags(TagText(opening) + t1 + t2 + t3 + t4 + TagText(closing)) == [opening, closing]
  {
    TagTags(opening);
    TextTags(t1);
    TextTags(t2);
    TextTags(t3);
    TextTags(t4);
    TagTags(closing);
    var s1 := TagText(opening) + t1;
    JoinTags(TagText(opening), t1);
    var s2 := s1 + t2;
    JoinTags(s1, t2);
    var s3 := s2 + t3;
    JoinTags(s2, t3);
    var s4 := s3 + t4;
    JoinTags(s3, t4);
    assert Tags(s4) == [opening];
    JoinTags(s4, TagText(closing));
  }

  lemma IdLineTags(assessmentHtml: string, sessionHtml: string)
    requires '<' !in assessmentHtml && '<' !in sessionHtml
    ensures Closed(IdLineStart + AssessmentLabel + assessmentHtml + SessionLabel + sessionHtml + DivEnd)
    ensures Tags(IdLineStart + AssessmentLabel + assessmentHtml + SessionLabel + sessionHtml + DivEnd) == [IdLineTag, "/div"]
  {
    IdLineTagIsPlain();
    assert '<' !in AssessmentLabel && '<' !in SessionLabel;
    TextBetweenTags(IdLineTag, AssessmentLabel, assessmentHtml, SessionLabel, sessionHtml, "/div");
  }

  lemma HeaderTextTags(nameHtml: string, assessmentHtml: string, sessionHtml: string)
    requires '<' !in nameHtml && '<' !in assessmentHtml && '<' !in sessionHtml
    ensures Closed(HeaderText(nameHtml, assessmentHtml, sessionHtml))
    ensures Tags(HeaderText(nameHtml, assessmentHtml, sessionHtml)) == HeaderTags
  {
    var head, title, ids := PageStart + StyleSheet + PageHeadEnd, TitleStart + nameHtml + TitleEnd,
      IdLineStart + AssessmentLabel + assessmentHtml + SessionLabel + sessionHtml + DivEnd;
    HeadTags();
    TitleTags(nameHtml);
    IdLineTags(assessmentHtml, sessionHtml);
    JoinTags(head, title);
    JoinTags(head + title, ids);
  }

  lemma HeaderHtmlTags(config: Schema, data: Value)
    ensures Closed(HeaderHtml(config, data)) && Tags(HeaderHtml(config, data)) == HeaderTags
  {
    HeaderTextTags(HtmlEscape(config.name), EscapeValue(Get(data, "assessment_id")), EscapeValue(Get(data, "session_id")));
  }

  /** Whatever the body, a page has the header's tags, the body's, then those of the end of the page. */
  lemma PageShape(header: string, body: string)
    requires Closed(header) && Tags(header) == HeaderTags && Closed(body)
    ensures WithoutBadges(Tags(header + body + PageEnd)) == HeaderTags + WithoutBadges(Tags(body)) + PageEndTags
  {
    TwoTags("/body", "/html");
    JoinTags(header, body);
    JoinTags(header + body, PageEnd);
    WithoutBadgesAppend(HeaderTags + Tags(body), PageEndTags);
    WithoutBadgesAppend(HeaderTags, Tags(body));
    HeaderTagsHaveNoBadge();
    PageEndTagsHaveNoBadge();
  }

  // ---------------------------------------------------------------------
  // The page

  /**
   * The tags of a rendered page, the badges left out, are the skeleton of
   * its schema: nothing in the record adds, removes or reorders a tag.
   */
  lemma RenderTags(config: Schema, data: Value)
    ensures WithoutBadges(Tags(Render(config, data))) == Skeleton(config)
  {
    HeaderHtmlTags(config, data);
    SectionsTags(data, config.sections);
    PageShape(HeaderHtml(config, data), SectionsHtml(data, config.sections));
  }

  /** Two records of the same assessment give pages with the same structure, badges aside. */
  lemma LayoutIndependentOfData(config: Schema, data1: Value, data2: Value)
    ensures WithoutBadges(Tags(Render(config, data1))) == WithoutBadges(Tags(Render(config, data2)))
  {
    RenderTags(config, data1);
    RenderTags(config, data2);
  }

  lemma {:induction false} RepeatCount(block: seq<string>, n: nat, t: string)
    ensures multiset(Repeat(block, n))[t] == n * multiset(block)[t]
  {
    if n > 0 {
      RepeatCount(block, n - 1, t);
      CountAppend(Repeat(block, n - 1), block, t);
      assert (n - 1) * multiset(block)[t] + multiset(block)[t] == n * multiset(block)[t];
    }
  }

  lemma {:induction false} SectionsSkeletonCount(sections: seq<Section>)
    ensures multiset(SectionsSkeleton(sections))[HeadingTag] == |sections|
    ensures multiset(SectionsSkeleton(sections))[CardTag] == TotalFields(sections)
  {
    if sections != [] {
      var init, last := sections[..|sections| - 1], sections[|sections| - 1];
      SectionsSkeletonCount(init);
      CardTagsCount();
      RepeatCount(CardTags(false), |last.fields|, CardTag);
      RepeatCount(CardTags(false), |last.fields|, HeadingTag);
      SectionOpeningCount();
    }
  }

  /** Taking the badges out keeps every section heading and every card. */
  lemma CountsSurviveWithoutBadges(tags: seq<string>)
    ensures multiset(WithoutBadges(tags))[HeadingTag] == multiset(tags)[HeadingTag]
    ensures multiset(WithoutBadges(tags))[CardTag] == multiset(tags)[CardTag]
  {
    CountedTagsAreNotBadges();
    WithoutBadgesCount(tags, HeadingTag);
    WithoutBadgesCount(tags, CardTag);
  }

  /** The skeleton of a schema has one section heading per section and one card per field. */
  lemma SkeletonCounts(config: Schema)
    ensures multiset(Skeleton(config))[HeadingTag] == |config.sections|
    ensures multiset(Skeleton(config))[CardTag] == TotalFields(config.sections)
  {
    SectionsSkeletonCount(config.sections);
    HeaderAndEndCount();
  }

  /** A page has one section heading per section and one card per field of the schema. */
  lemma RenderCounts(config: Schema, data: Value)
    ensures multiset(Tags(Render(config, data)))[HeadingTag] == |config.sections|
    ensures multiset(Tags(Render(config, data)))[CardTag] == TotalFields(config.sections)
  {
    RenderTags(config, data);
    CountsSurviveWithoutBadges(Tags(Render(config, data)));
    SkeletonCounts(config);
  }
}

=== FILE: markup.dfy ===
/**
 * Reading the tags back out of generated HTML. `Tags` lists what lies between
 * each `<` and the next `>`; text that holds no `<` contributes no tag, so
 * escaped text spliced into a template cannot add or hide a tag.
 */
module Markup {
  import opened Numbers

  /** The text of the tag `<name>`. */
  function TagText(name: string): string
  {
    "<" + name + ">"
  }

  /** The tags of an HTML string: what lies between each `<` and the next `>`, in order. */
  function Tags(s: string): seq<string>
    decreases |s|
  {
    if s == [] then []
    else if s[0] != '<' then Tags(s[1..])
    else
      var k := IndexOf(s[1..], '>');
      if k == |s| - 1 then [s[1..]] else [s[1..k + 1]] + Tags(s[k + 2..])
  }

  /** Every `<` of `s` is closed by a `>` later in `s`: reading tags never runs past its end. */
  predicate Closed(s: string)
    decreases |s|
  {
    if s == [] then true
    else if s[0] != '<' then Closed(s[1..])
    else
      var k := IndexOf(s[1..], '>');
      k < |s| - 1 && Closed(s[k + 2..])
  }

  /** A tag name that cannot end its tag early or open another. */
  predicate PlainName(name: string)
  {
    '<' !in name && '>' !in name
  }

  lemma PlainNameAppend(a: string, b: string)
    requires PlainName(a) && PlainName(b)
    ensures PlainName(a + b)
  {
  }

  lemma IndexOfAppend(x: string, y: string, c: char)
    requires c in x
    ensures IndexOf(x + y, c) == IndexOf(x, c) < |x|
  {
    var k := IndexOf(x, c);
    assert (x + y)[k] == c;
  }

  /**
   * Reading the tags of a concatenation reads those of each part, when the
   * first part is closed; two closed parts make a closed whole.
   */
  lemma {:induction false} TagsAppend(a: string, b: string)
    requires Closed(a)
    ensures Tags(a + b) == Tags(a) + Tags(b)
    ensures Closed(b) ==> Closed(a + b)
    decreases |a|
  {
    var s := a + b;
    if a == [] {
      assert s == b;
    } else if a[0] != '<' {
      assert s[0] == a[0];
      assert s[1..] == a[1..] + b;
      TagsAppend(a[1..], b);
    } else {
      assert s[0] == '<';
      var k := IndexOf(a[1..], '>');
      assert a[1..][k] == '>';
      assert s[1..] == a[1..] + b;
      IndexOfAppend(a[1..], b, '>');
      assert s[1..k + 1] == a[1..k + 1];
      assert s[k + 2..] == a[k + 2..] + b;
      TagsAppend(a[k + 2..], b);
    }
  }

  /** Two closed parts make a closed whole, whose tags are those of the first part, then the second's. */
  lemma JoinTags(a: string, b: string)
    requires Closed(a) && Closed(b)
    ensures Closed(a + b) && Tags(a + b) == Tags(a) + Tags(b)
  {
    TagsAppend(a, b);
  }

  /** Text without `<` is closed and contributes no tag. */
  lemma {:induction false} TextTags(text: string)
    requires '<' !in text
    ensures Closed(text) && Tags(text) == []
    decreases |text|
  {
    if text != [] {
      TextTags(text[1..]);
    }
  }

  /** A written tag is read back as that one tag. */
  lemma TagTags(name: string)
    requires PlainName(name)
    ensures Closed(TagText(name)) && Tags(TagText(name)) == [name]
  {
    var s := TagText(name);
    assert s[1..] == name + ">";
    assert s[1..][|name|] == '>';
    var k := IndexOf(s[1..], '>');
    assert k == |name|;
    assert s[1..k + 1] == name;
    assert s[k + 2..] == [];
  }

  /** Two tags in a row. */
  lemma TwoTags(a: string, b: string)
    requires PlainName(a) && PlainName(b)
    ensures Closed(TagText(a) + TagText(b)) && Tags(TagText(a) + TagText(b)) == [a, b]
  {
    TagTags(a);
    TagTags(b);
    JoinTags(TagText(a), TagText(b));
  }

  /** Three tags in a row. */
  lemma ThreeTags(a: string, b: string, c: string)
    requires PlainName(a) && PlainName(b) && PlainName(c)
    ensures Closed(TagText(a) + TagText(b) + TagText(c))
    ensures Tags(TagText(a) + TagText(b) + TagText(c)) == [a, b, c]
  {
    TwoTags(a, b);
    TagTags(c);
    JoinTags(TagText(a) + TagText(b), TagText(c));
  }

  /** Four tags in a row. */
  lemma FourTags(a: string, b: string, c: string, d: string)
    requires PlainName(a) && PlainName(b) && PlainName(c) && PlainName(d)
    ensures Closed(TagText(a) + TagText(b) + TagText(c) + TagText(d))
    ensures Tags(TagText(a) + TagText(b) + TagText(c) + TagText(d)) == [a, b, c, d]
  {
    ThreeTags(a, b, c);
    TagTags(d);
    JoinTags(TagText(a) + TagText(b) + TagText(c), TagText(d));
  }
}

=== FILE: numbers.dfy ===
/**
 * Decimal numerals: the digit strings that JavaScript's `String(n)` produces
 * for the numbers a JSON record holds, and the string-to-number coercion
 * `Number(s)` that the classifier applies to them.
 */
module Numbers {
  import opened Wrappers

  predicate IsDigit(c: char) { '0' <= c <= '9' }

  predicate AllDigits(s: string) { forall i :: 0 <= i < |s| ==> IsDigit(s[i]) }

  function DigitChar(d: nat): (c: char)
    requires d < 10
    ensures IsDigit(c)
  {
    ('0' as int + d) as char
  }

  function DigitValue(c: char): (d: nat)
    requires IsDigit(c)
    ensures d < 10
  {
    c as int - '0' as int
  }

  function Pow10(k: nat): (p: nat)
    ensures p >= 1
  {
    if k == 0 then 1 else 10 * Pow10(k - 1)
  }

  /** The value of a digit string read most significant digit first; "" reads as 0. */
  function DigitsValue(s: string): (v: nat)
    requires AllDigits(s)
    ensures v < Pow10(|s|)
  {
    if s == [] then 0 else DigitsValue(s[..|s| - 1]) * 10 + DigitValue(s[|s| - 1])
  }

  /** The shortest decimal numeral of `n`, as `String(n)` writes a non-negative integer. */
  function NatToString(n: nat): (s: string)
    ensures |s| >= 1 && AllDigits(s)
    ensures s[0] == '0' ==> |s| == 1
  {
    if n < 10 then [DigitChar(n)] else NatToString(n / 10) + [DigitChar(n % 10)]
  }

  lemma {:induction false} NatToStringRoundTrip(n: nat)
    ensures DigitsValue(NatToString(n)) == n
  {
    if n >= 10 {
      var a := NatToString(n / 10);
      var s := a + [DigitChar(n % 10)];
      assert s[..|s| - 1] == a;
      NatToStringRoundTrip(n / 10);
    }
  }

  function Zeros(k: nat): (z: string)
    ensures |z| == k && AllDigits(z)
  {
    if k == 0 then [] else Zeros(k - 1) + ['0']
  }

  /** Left-pads a numeral with zeros up to width `k`. */
  function ZeroPad(s: string, k: nat): (r: string)
    requires AllDigits(s)
    ensures AllDigits(r) && |r| == if |s| < k then k else |s|
  {
    if |s| < k then Zeros(k - |s|) + s else s
  }

  /** Leading zeros do not change the value of a digit string. */
  lemma {:induction false} LeadingZerosValue(j: nat, s: string)
    requires AllDigits(s)
    ensures DigitsValue(Zeros(j) + s) == DigitsValue(s)
    decreases |s| + j
  {
    var t := Zeros(j) + s;
    if s == [] {
      assert t == Zeros(j);
      if j > 0 {
        assert t[..|t| - 1] == Zeros(j - 1);
        LeadingZerosValue(j - 1, []);
        assert Zeros(j - 1) + [] == Zeros(j - 1);
      }
    } else {
      assert t[..|t| - 1] == Zeros(j) + s[..|s| - 1];
      LeadingZerosValue(j, s[..|s| - 1]);
    }
  }

  /** The first index of `c` in `s`, or |s| when `c` does not occur. */
  function IndexOf(s: string, c: char): (k: nat)
    ensures k <= |s|
    ensures k < |s| ==> s[k] == c
    ensures forall i :: 0 <= i < k ==> s[i] != c
  {
    if s == [] then 0 else if s[0] == c then 0 else 1 + IndexOf(s[1..], c)
  }

  /** The number written `whole.frac`. */
  function NumeralValue(whole: string, frac: string): real
    requires AllDigits(whole) && AllDigits(frac)
  {
    DigitsValue(whole) as real + DigitsValue(frac) as real / Pow10(|frac|) as real
  }

  /**
   * `Number(s)` on an unsigned decimal numeral `ddd`, `ddd.ddd`, `.ddd` or
   * `ddd.`; anything else is NaN (None).
   */
  function UnsignedToNumber(s: string): (r: Option<real>)
  {
    var k := IndexOf(s, '.');
    var whole := s[..k];
    var frac := if k < |s| then s[k + 1..] else [];
    if |whole| + |frac| == 0 || !AllDigits(whole) || !AllDigits(frac) then None
    else Some(NumeralValue(whole, frac))
  }

  /**
   * JavaScript's `Number(s)` for the decimal forms above with an optional sign;
   * the empty string gives 0. Every other string gives NaN, represented as None.
   */
  function StrToNumber(s: string): (r: Option<real>)
    ensures s == "-" ==> r.None?
  {
    if s == [] then Some(0.0)
    else if s[0] == '-' then
      match UnsignedToNumber(s[1..])
      case Some(v) => Some(-v)
      case None => None
    else if s[0] == '+' then UnsignedToNumber(s[1..])
    else UnsignedToNumber(s)
  }

  /** The number a decimal literal `m` x 10^-e stands for. */
  function DecimalValue(m: int, e: nat): real
  {
    m as real / Pow10(e) as real
  }

  /**
   * `String(x)` for the non-negative number n x 10^-e: the numeral of n with a
   * decimal point inserted e digits from the right (zero-padded when n has too
   * few digits).
   */
  function UnsignedDecimal(n: nat, e: nat): (s: string)
    ensures |s| >= 1 && IsDigit(s[0])
  {
    var digits := NatToString(n);
    if e == 0 then digits
    else
      var padded := ZeroPad(digits, e + 1);
      var cut := |padded| - e;
      padded[..cut] + "." + padded[cut..]
  }

  /**
   * `String(x)` for the number m x 10^-e: trailing fraction zeros are dropped
   * and a negative number gets a leading minus sign.
   */
  function DecimalToString(m: int, e: nat): (s: string)
    ensures |s| >= 1
    ensures s != "-"
    decreases e
  {
    if e > 0 && m % 10 == 0 then DecimalToString(m / 10, e - 1)
    else if m < 0 then "-" + UnsignedDecimal(-m, e)
    else UnsignedDecimal(m, e)
  }

  lemma {:induction false} ShiftLeftOnce(x: nat, p: nat, y: nat, d: nat)
    ensures (x * p + y) * 10 + d == x * (10 * p) + (y * 10 + d)
  {
  }

  /** Splitting a digit string: the left part counts |b| places higher. */
  lemma {:induction false} DigitsValueSplit(a: string, b: string)
    requires AllDigits(a) && AllDigits(b)
    ensures DigitsValue(a + b) == DigitsValue(a) * Pow10(|b|) + DigitsValue(b)
    decreases |b|
  {
    if b == [] {
      assert a + b == a;
    } else {
      var b' := b[..|b| - 1];
      var t := a + b;
      assert t[..|t| - 1] == a + b';
      assert t[|t| - 1] == b[|b| - 1];
      DigitsValueSplit(a, b');
      ShiftLeftOnce(DigitsValue(a), Pow10(|b'|), DigitsValue(b'), DigitValue(b[|b| - 1]));
    }
  }

  lemma {:induction false} ShiftedFraction(n: nat, w: nat, f: nat, p: nat)
    requires p >= 1 && n == w * p + f
    ensures n as real / p as real == w as real + f as real / p as real
  {
  }

  lemma {:induction false} CancelTen(x: int, p: nat)
    requires p >= 1
    ensures (x * 10) as real / (10 * p) as real == x as real / p as real
  {
  }

  /** `Number` on a plain digit string is its value. */
  lemma {:induction false} WholeNumeral(w: string)
    requires |w| >= 1 && AllDigits(w)
    ensures UnsignedToNumber(w) == Some(DigitsValue(w) as real)
  {
    var k := IndexOf(w, '.');
    assert k == |w|;
    assert w[..k] == w;
    assert NumeralValue(w, []) == DigitsValue(w) as real;
  }

  /** `Number` on `w.f` reads w as the whole part and f as the fraction. */
  lemma {:induction false} FractionNumeral(w: string, f: string)
    requires |w| >= 1 && AllDigits(w) && AllDigits(f)
    ensures UnsignedToNumber(w + "." + f) == Some(NumeralValue(w, f))
  {
    var s := w + "." + f;
    var k := IndexOf(s, '.');
    assert s[|w|] == '.';
    assert k == |w|;
    assert s[..k] == w;
    assert s[k + 1..] == f;
  }

  lemma {:induction false} WholeRoundTrip(n: nat)
    ensures UnsignedToNumber(UnsignedDecimal(n, 0)) == Some(DecimalValue(n, 0))
  {
    var digits := NatToString(n);
    assert UnsignedDecimal(n, 0) == digits;
    NatToStringRoundTrip(n);
    WholeNumeral(digits);
    assert Pow10(0) == 1;
  }

  /** Splitting the padded numeral e digits from the right gives the number n x 10^-e. */
  lemma {:induction false} PaddedSplitValue(n: nat, e: nat, w: string, f: string)
    requires e > 0
    requires w + f == ZeroPad(NatToString(n), e + 1) && |f| == e
    ensures AllDigits(w) && AllDigits(f)
    ensures NumeralValue(w, f) == DecimalValue(n, e)
  {
    var digits := NatToString(n);
    var padded := w + f;
    assert forall i :: 0 <= i < |w| ==> w[i] == padded[i];
    assert forall i :: 0 <= i < |f| ==> f[i] == padded[|w| + i];
    assert n == DigitsValue(w) * Pow10(e) + DigitsValue(f) by {
      NatToStringRoundTrip(n);
      if |digits| < e + 1 {
        LeadingZerosValue(e + 1 - |digits|, digits);
      }
      DigitsValueSplit(w, f);
    }
    ShiftedFraction(n, DigitsValue(w), DigitsValue(f), Pow10(e));
  }

  lemma {:induction false} FractionRoundTrip(n: nat, e: nat)
    requires e > 0
    ensures UnsignedToNumber(UnsignedDecimal(n, e)) == Some(DecimalValue(n, e))
  {
    var padded := ZeroPad(NatToString(n), e + 1);
    var cut := |padded| - e;
    var w, f := padded[..cut], padded[cut..];
    assert padded == w + f;
    assert UnsignedDecimal(n, e) == w + "." + f;
    PaddedSplitValue(n, e, w, f);
    FractionNumeral(w, f);
  }

  lemma {:induction false} UnsignedDecimalRoundTrip(n: nat, e: nat)
    ensures UnsignedToNumber(UnsignedDecimal(n, e)) == Some(DecimalValue(n, e))
  {
    if e == 0 {
      WholeRoundTrip(n);
    } else {
      FractionRoundTrip(n, e);
    }
  }

  /** Dropping a trailing fraction zero keeps the number. */
  lemma {:induction false} DropTrailingZero(m: int, e: nat)
    requires e > 0 && m % 10 == 0
    ensures DecimalValue(m, e) == DecimalValue(m / 10, e - 1)
  {
    assert m == (m / 10) * 10;
    assert Pow10(e) == 10 * Pow10(e - 1);
    CancelTen(m / 10, Pow10(e - 1));
  }

  lemma {:induction false} NegatedValue(m: int, e: nat)
    ensures DecimalValue(m, e) == -DecimalValue(-m, e)
  {
  }

  /** A leading minus sign negates what the rest of the numeral reads as. */
  lemma {:induction false} NegativeNumeral(u: string, v: real)
    requires UnsignedToNumber(u) == Some(v)
    ensures StrToNumber("-" + u) == Some(-v)
  {
    assert ("-" + u)[1..] == u;
  }

  lemma {:induction false} NonNegativeRoundTrip(m: nat, e: nat)
    ensures StrToNumber(UnsignedDecimal(m, e)) == Some(DecimalValue(m, e))
  {
    var u := UnsignedDecimal(m, e);
    assert u[0] != '-' && u[0] != '+';
    UnsignedDecimalRoundTrip(m, e);
  }

  lemma {:induction false} CanonicalNegativeRoundTrip(m: int, e: nat)
    requires m < 0 && !(e > 0 && m % 10 == 0)
    ensures StrToNumber(DecimalToString(m, e)) == Some(DecimalValue(m, e))
  {
    var n: nat := -m;
    var u := UnsignedDecimal(n, e);
    assert DecimalToString(m, e) == "-" + u;
    UnsignedDecimalRoundTrip(n, e);
    NegativeNumeral(u, DecimalValue(n, e));
    NegatedValue(m, e);
  }

  lemma {:induction false} CanonicalNonNegativeRoundTrip(m: int, e: nat)
    requires m >= 0 && !(e > 0 && m % 10 == 0)
    ensures StrToNumber(DecimalToString(m, e)) == Some(DecimalValue(m, e))
  {
    assert DecimalToString(m, e) == UnsignedDecimal(m, e);
    NonNegativeRoundTrip(m, e);
  }

  /** Reading back what `String(x)` wrote gives the same number. */
  lemma {:induction false} DecimalRoundTrip(m: int, e: nat)
    ensures StrToNumber(DecimalToString(m, e)) == Some(DecimalValue(m, e))
    decreases e
  {
    if e > 0 && m % 10 == 0 {
      DecimalRoundTrip(m / 10, e - 1);
      DropTrailingZero(m, e);
    } else if m < 0 {
      CanonicalNegativeRoundTrip(m, e);
    } else {
      CanonicalNonNegativeRoundTrip(m, e);
    }
  }
}

=== FILE: report.dfy ===
/**
 * `renderHtml` and `generateReportForSession`: the report page is written
 * into one string, section by section and field by field in the order the
 * assessment's schema declares them. `Render` says what the page is;
 * `RenderHtml` is the loop that writes it.
 */
module Report {
  import opened Wrappers
  import opened Json
  import opened JsonPath
  import opened Assessments
  import opened Classify
  import opened Escape
  import opened Markup

  // ---------------------------------------------------------------------
  // The fixed text of the page template

  const PageStart := TagText("html") + TagText("head") + TagText("meta charset=\"utf-8\"/") + TagText("style")
  /** The stylesheet between the style tags; its rules are presentation only. */
  const StyleSheet := ""
  const PageHeadEnd := TagText("/style") + TagText("/head") + TagText("body")
  const TitleStart := TagText("h1")
  const TitleEnd := TagText("/h1")
  /** The two declarations of the identification line's inline style. */
  const IdLineStyle := "margin-bottom:8px;" + "color:#6b7280"
  const IdLineTag := "div style=\"" + IdLineStyle + "\""
  const IdLineStart := TagText(IdLineTag)
  const AssessmentLabel := "Assessment ID: "
  const SessionLabel := " | Session: "
  const DivEnd := TagText("/div")
  const HeadingTag := "h2"
  const HeadingStart := TagText(HeadingTag)
  const HeadingEnd := TagText("/h2")
  const GridTag := "div class=\"grid\""
  const GridStart := TagText(GridTag)
  const CardTag := "div class=\"card\""
  const CardStart := TagText(CardTag) + TagText("div class=\"label\"")
  const LabelEnd := TagText("/div") + TagText("div class=\"value\"")
  const BadgeTag := "span class=\"badge\""
  const BadgeStart := TagText(BadgeTag)
  const BadgeEndTag := "/span"
  const BadgeEnd := TagText(BadgeEndTag)
  const CardEnd := TagText("/div") + TagText("/div")
  const PageEnd := TagText("/body") + TagText("/html")

  /** What a card shows for a value that is missing or null. */
  const Placeholder := Str("-")

  // ---------------------------------------------------------------------
  // One field's card

  /** `htmlEscape(v)`: `String(v)`, escaped. */
  function EscapeValue(v: Option<Value>): string
  {
    HtmlEscape(JsString(v))
  }

  /** `raw == null ? '-' : raw`: loose equality with null holds for undefined and null alike. */
  function Shown(raw: Option<Value>): Value
  {
    if raw.None? || raw.value.Null? then Placeholder else raw.value
  }

  /** The value a field's card shows for a record. */
  function FieldValue(data: Value, field: Field): Value
  {
    Shown(ResolveValue(data, field.jsonPath))
  }

  /** `cls`: the shown value is classified only when the field names a rule set (a non-empty name). */
  function BadgeLabel(field: Field, shown: Value): Option<string>
  {
    if field.classify.Some? && field.classify.value != "" then Classification(field.classify.value, Some(shown))
    else None
  }

  /** A label is truthy when it exists and is not the empty string. */
  predicate Truthy(cls: Option<string>)
  {
    cls.Some? && cls.value != ""
  }

  /** The unit follows the value, after one space, when it is not empty. */
  function UnitHtml(unit: string): string
  {
    if unit != "" then " " + HtmlEscape(unit) else ""
  }

  function BadgeHtml(cls: Option<string>): string
  {
    if Truthy(cls) then BadgeStart + HtmlEscape(cls.value) + BadgeEnd else ""
  }

  /** The card template, filled in with the escaped label, value, unit and badge. */
  function CardText(labelHtml: string, valueHtml: string, unitHtml: string, badgeHtml: string): string
  {
    CardStart + labelHtml + LabelEnd + valueHtml + unitHtml + badgeHtml + CardEnd
  }

  function CardHtml(data: Value, field: Field): string
  {
    var shown := FieldValue(data, field);
    CardText(HtmlEscape(field.labelText), EscapeValue(Some(shown)), UnitHtml(field.unit), BadgeHtml(BadgeLabel(field, shown)))
  }

  // ---------------------------------------------------------------------
  // The page

  /** The cards of `fields`, in order. */
  function FieldsHtml(data: Value, fields: seq<Field>): string
  {
    if fields == [] then ""
    else FieldsHtml(data, fields[..|fields| - 1]) + CardHtml(data, fields[|fields| - 1])
  }

  /** The heading line of a section. */
  function HeadingHtml(title: string): string
  {
    HeadingStart + HtmlEscape(title) + HeadingEnd
  }

  function SectionHtml(data: Value, section: Section): string
  {
    HeadingHtml(section.title) + GridStart + FieldsHtml(data, section.fields) + DivEnd
  }

  /** The sections, in order. */
  function SectionsHtml(data: Value, sections: seq<Section>): string
  {
    if sections == [] then ""
    else SectionsHtml(data, sections[..|sections| - 1]) + SectionHtml(data, sections[|sections| - 1])
  }

  /** The header template, filled in with the escaped name and ids. */
  function HeaderText(nameHtml: string, assessmentHtml: string, sessionHtml: string): string
  {
    (PageStart + StyleSheet + PageHeadEnd)
      + (TitleStart + nameHtml + TitleEnd)
      + (IdLineStart + AssessmentLabel + assessmentHtml + SessionLabel + sessionHtml + DivEnd)
  }

  function HeaderHtml(config: Schema, data: Value): string
  {
    HeaderText(HtmlEscape(config.name), EscapeValue(Get(data, "assessment_id")), EscapeValue(Get(data, "session_id")))
  }

  /** The page `renderHtml(config, data)` returns. */
  function Render(config: Schema, data: Value): string
  {
    HeaderHtml(config, data) + SectionsHtml(data, config.sections) + PageEnd
  }

  /** The body of `renderHtml`'s inner loop: one field's card. */
  method RenderCard(data: Value, field: Field) returns (card: string)
    ensures card == CardHtml(data, field)
  {
    var raw := ResolveValue(data, field.jsonPath);
    var val := if raw.None? || raw.value.Null? then Placeholder else raw.value;
    var cls: Option<string> := None;
    if field.classify.Some? && field.classify.value != "" {
      cls := ClassifyValue(field.classify.value, Some(val));
    }
    card := CardStart + HtmlEscape(field.labelText) + LabelEnd + EscapeValue(Some(val))
      + UnitHtml(field.unit) + BadgeHtml(cls) + CardEnd;
  }

  /** One pass of `renderHtml`'s outer loop: appends a section's heading, its grid of cards and the grid's end. */
  method AppendSection(page: string, data: Value, section: Section) returns (html: string)
    ensures html == page + SectionHtml(data, section)
  {
    html := page;
    html := html + HeadingHtml(section.title);
    html := html + GridStart;
    ghost var opening := html;
    for j := 0 to |section.fields|
      invariant html == opening + FieldsHtml(data, section.fields[..j])
    {
      ghost var before := html;
      var card := RenderCard(data, section.fields[j]);
      html := html + card;
      CardStep(opening, data, section.fields, j, before, html);
    }
    ghost var cards := html;
    html := html + DivEnd;
    SectionStep(page, data, section, opening, cards, html);
  }

  /** The first three statements of `renderHtml`: the head of the page, the title and the identification line. */
  method AppendHeader(page: string, config: Schema, data: Value) returns (html: string)
    ensures html == page + HeaderHtml(config, data)
  {
    var head, title, ids := PageStart + StyleSheet + PageHeadEnd, TitleStart + HtmlEscape(config.name) + TitleEnd,
      IdLineStart + AssessmentLabel + EscapeValue(Get(data, "assessment_id")) + SessionLabel + EscapeValue(Get(data, "session_id")) + DivEnd;
    html := page;
    html := html + head;
    html := html + title;
    html := html + ids;
    Associate(page, head, title);
    Associate(page, head + title, ids);
  }

  /** `renderHtml`'s outer loop: appends each section of the schema in turn. */
  method AppendSections(page: string, data: Value, sections: seq<Section>) returns (html: string)
    ensures html == page + SectionsHtml(data, sections)
  {
    html := page;
    for i := 0 to |sections|
      invariant html == page + SectionsHtml(data, sections[..i])
    {
      ghost var before := html;
      html := AppendSection(html, data, sections[i]);
      SectionsStep(page, data, sections, i, before, html);
    }
    assert sections[..|sections|] == sections;
  }

  /** `renderHtml`: the header, then each section with each of its cards, then the end of the page. */
  method RenderHtml(config: Schema, data: Value) returns (html: string)
    ensures html == Render(config, data)
  {
    html := "";
    html := AppendHeader(html, config, data);
    ghost var header := html;
    html := AppendSections(html, data, config.sections);
    ghost var body := html;
    html := html + PageEnd;
    PageStep(config, data, header, body, html);
  }

  // ---------------------------------------------------------------------
  // One step of each loop, stated apart from the loops

  lemma Associate(a: string, b: string, c: string)
    ensures (a + b) + c == a + (b + c)
  {
  }

  lemma CardStep(opening: string, data: Value, fields: seq<Field>, j: nat, before: string, after: string)
    requires j < |fields|
    requires before == opening + FieldsHtml(data, fields[..j])
    requires after == before + CardHtml(data, fields[j])
    ensures after == opening + FieldsHtml(data, fields[..j + 1])
  {
    assert fields[..j + 1][..j] == fields[..j];
    Associate(opening, FieldsHtml(data, fields[..j]), CardHtml(data, fields[j]));
  }

  lemma SectionStep(page: string, data: Value, section: Section, opening: string, before: string, after: string)
    requires opening == page + HeadingHtml(section.title) + GridStart
    requires before == opening + FieldsHtml(data, section.fields[..|section.fields|])
    requires after == before + DivEnd
    ensures after == page + SectionHtml(data, section)
  {
    assert section.fields[..|section.fields|] == section.fields;
    var h, f := HeadingHtml(section.title), FieldsHtml(data, section.fields);
    calc {
      after;
      page + h + GridStart + f + DivEnd;
      { Associate(page, h, GridStart); }
      page + (h + GridStart) + f + DivEnd;
      { Associate(page, h + GridStart, f); }
      page + (h + GridStart + f) + DivEnd;
      { Associate(page, h + GridStart + f, DivEnd); }
      page + (h + GridStart + f + DivEnd);
    }
  }

  lemma SectionsStep(header: string, data: Value, sections: seq<Section>, i: nat, before: string, after: string)
    requires i < |sections|
    requires before == header + SectionsHtml(data, sections[..i])
    requires after == before + SectionHtml(data, sections[i])
    ensures after == header + SectionsHtml(data, sections[..i + 1])
  {
    assert sections[..i + 1][..i] == sections[..i];
    Associate(header, SectionsHtml(data, sections[..i]), SectionHtml(data, sections[i]));
  }

  lemma PageStep(config: Schema, data: Value, header: string, before: string, after: string)
    requires header == "" + HeaderHtml(config, data)
    requires before == header + SectionsHtml(data, config.sections)
    requires after == before + PageEnd
    ensures after == Render(config, data)
  {
    assert "" + HeaderHtml(config, data) == HeaderHtml(config, data);
  }

  // ---------------------------------------------------------------------
  // What a card shows

  /** A field the record does not have (or has as null) shows "-" and never a badge. */
  lemma MissingFieldCard(data: Value, field: Field)
    requires ResolveValue(data, field.jsonPath).None? || ResolveValue(data, field.jsonPath).value.Null?
    ensures FieldValue(data, field) == Placeholder
    ensures BadgeLabel(field, FieldValue(data, field)).None?
    ensures CardHtml(data, field) == CardText(HtmlEscape(field.labelText), "-", UnitHtml(field.unit), "")
  {
    PlaceholderIsNaN();
    PlaceholderText();
  }

  /** The placeholder is written as it is: escaping leaves "-" alone. */
  lemma PlaceholderText()
    ensures EscapeValue(Some(Placeholder)) == "-"
  {
    ReplaceAbsent("-", '&', "&amp;");
    ReplaceAbsent("-", '<', "&lt;");
    ReplaceAbsent("-", '>', "&gt;");
  }

  /**
   * The badge is computed from the shown value, so a missing value is
   * classified as the placeholder "-". That gives no label, exactly as
   * classifying the missing value itself would.
   */
  lemma BadgeOfRawValue(data: Value, field: Field)
    ensures BadgeLabel(field, FieldValue(data, field))
         == if field.classify.Some? && field.classify.value != ""
            then Classification(field.classify.value, ResolveValue(data, field.jsonPath))
            else None
  {
    PlaceholderIsNaN();
  }

  /** The unit is written only when it is not empty, after one space, and reads back as itself. */
  lemma UnitShownWhenPresent(unit: string)
    ensures UnitHtml(unit) != "" <==> unit != ""
    ensures unit != "" ==> UnitHtml(unit)[0] == ' ' && Unescape(UnitHtml(unit)[1..]) == unit
  {
    if unit != "" {
      HtmlEscapeRoundTrip(unit);
      assert UnitHtml(unit)[1..] == HtmlEscape(unit);
    }
  }

  // ---------------------------------------------------------------------
  // generateReportForSession

  /** The page and the name of the PDF file it is printed to. */
  datatype ReportFile = ReportFile(html: string, filename: string)

  function NoConfigMessage(assessmentId: string): string
  {
    "No config for assessment_id " + assessmentId
  }

  /** The file name `<session_id>_<assessment_id>.pdf`, each part as `String()` writes it. */
  function PdfName(sessionId: string, assessmentId: string): string
  {
    sessionId + "_" + assessmentId + ".pdf"
  }

  /**
   * `generateReportForSession`: looks the record's `assessment_id` up in the
   * configuration (as a property key, that is, as `String()` writes it) and
   * throws before rendering anything when there is no such assessment;
   * otherwise renders the page and names the file.
   */
  method GenerateReportForSession(sessionData: Value) returns (r: Result<ReportFile, string>)
    ensures var assessmentId := JsString(Get(sessionData, "assessment_id"));
      && (r.Failure? <==> assessmentId !in AssessmentsConfig)
      && (r.Failure? ==> r.error == NoConfigMessage(assessmentId))
      && (r.Success? ==>
            && r.value.html == Render(AssessmentsConfig[assessmentId], sessionData)
            && r.value.filename == PdfName(JsString(Get(sessionData, "session_id")), assessmentId))
  {
    var assessmentId := JsString(Get(sessionData, "assessment_id"));
    if assessmentId !in AssessmentsConfig {
      return Failure(NoConfigMessage(assessmentId));
    }
    var config := AssessmentsConfig[assessmentId];
    var html := RenderHtml(config, sessionData);
    var filename := PdfName(JsString(Get(sessionData, "session_id")), assessmentId);
    return Success(ReportFile(html, filename));
  }

  /** Two sessions of the same assessment never share a file name unless their ids are written alike. */
  lemma PdfNameDistinct(session1: string, session2: string, assessmentId: string)
    requires PdfName(session1, assessmentId) == PdfName(session2, assessmentId)
    ensures session1 == session2
  {
    var tail := "_" + assessmentId + ".pdf";
    assert PdfName(session1, assessmentId) == session1 + tail;
    assert PdfName(session2, assessmentId) == session2 + tail;
    assert |session1| == |session2|;
    assert session1 == PdfName(session1, assessmentId)[..|session1|];
  }
}

=== FILE: wrappers.dfy ===
/** Option and Result, used for JavaScript's `undefined` and for thrown errors. */
module Wrappers {

  /** `None` stands for JavaScript's `undefined` (or a missing value). */
  datatype Option<+T> = None | Some(value: T)

  /** `Failure` stands for an exception thrown to the caller. */
  datatype Result<+R, +E> = Success(value: R) | Failure(error: E)
}
